=== FILE: README.md ===
# Measurement stage box logic, in Dafny

This project models the integer box logic of the measurement stage. It
finds the rectangular markings of a rectified test card and gives each one a
reading. The same logic exists twice: in Python (`RFCalc.py`) and in a C++
port (`references/RFCalc.cpp`). The model covers five parts, one module each
(plus helper modules):

- **Crop** (`crop.dfy`): `crop_image` / `cropImage`. Four percentages become
  pixel margins by truncation. The image is cut to rows
  `[top, height - bottom)` and columns `[left, width - right)`. Python's
  slices clamp out-of-range bounds, while OpenCV's `Range` rejects them. An
  empty crop keeps its other extent in numpy but becomes 0×0 in OpenCV.
- **Contours** (`contours.dfy`): the area filter of `find_contours` /
  `findContours`. A contour is its reported area plus its bounding
  rectangle, and it is kept when its area exceeds the threshold.
- **Suppression** (`suppression.dfy`, with `index_sort.dfy`, `positions.dfy`
  and `geometry.dfy`): `non_max_suppression`, following Python, with one stable choice of tie
  order (see "## Left out"):
  - sort indices by bottom edge;
  - take the index at `last` as the keeper;
  - collect `suppress = [last] + overlapping positions`, where the overlap is
    the intersection divided by the *candidate's* area;
  - remove those positions all at once with `np.delete`.

  The area normaliser is a parameter. `PixelInclusive` is Python's
  `(x2-x1+1)*(y2-y1+1)` and `RectArea` is C++'s `rect.area()`.
- **CppSuppression** (`cpp_suppression.dfy`): the C++ port's erase loop as
  written, which removes `suppress` back to front one `vector::erase` at a
  time. Once a keeper drops any other entry, the last erase of the pass is
  at or past `end()`: when the keeper drops k other entries, position `last`
  lies k − 1 places past the end of the shrunken vector. That breaks the precondition of `vector::erase`, so the C++
  behaviour is undefined; the model records the invalid erase and stops the
  run there. It also holds the corrected loop.
- **Readings** (`readings.dfy`): the filter and reading of `draw_rectangles`
  / `drawRectangles`. A box needs aspect ≤ 3 and area > 250. Its reading is
  `1 - centerY / 500`, where the centre uses floor division in Python and
  truncating division of the extent in C++.
- **Search** (`search.dfy`): the loop of `RFValueCalc` / `mainProcess`. It
  starts at a threshold of 200 and lowers it by 100 until a round leaves at
  least seven boxes. The loop has no lower bound, so `Relax` runs it with a
  round budget (`fuel`) and reports whether the target was reached.
  `RelaxWithFloor` is the corrected search.

A few modelling choices apply throughout:

- Integers are unbounded.
- Percentages are exact fractions.
- The overlap fraction and the reading are exact reals.
- `IntMath` defines floor division and truncating division, matching
  Python's `//` and C++'s `/`.
- The C++ claims are about each function body read on its own.
  `references/RFCalc.cpp` as a whole does not compile as written: `cropImage`
  (line 11) and `drawText` (line 108) are used before they are declared, and
  the parameter `threshold` (line 40) hides `cv::threshold`, which line 42
  calls.

## Model

| member | source | states |
|---|---|---|
| IntMath.FloorDiv | RFCalc.py:78-79 | `a // d` is the unique q with q·d ≤ a < q·d + d |
| IntMath.TruncDiv | references/RFCalc.cpp:104-105 | C++ `/` rounds toward zero: the remainder takes the sign of the dividend and is smaller than the divisor in magnitude |
| IntMath.ScaleTrunc | RFCalc.py:14-17 | `int(n * f)` is n·f rounded toward zero: t·den ≤ n·num < t·den + den for a non-negative product, and the mirror image for a negative one; `ScaleTruncNonNegative` and `ScaleTruncSumFits` build on it |
| IntMath.TruncIsFloorWhenNonNegative | references/RFCalc.cpp:104-105 | for a non-negative dividend, truncating and floor division agree |
| IntMath.ScaleTruncSumFits | RFCalc.py:14-17 | for non-negative percentages summing to at most 1, the two truncated margins together fit in the extent |
| IntMath.SharesFit | RFCalc.py:14-17 | shares t_a ≤ n·p/d and t_b ≤ n·q/e with p/d + q/e ≤ 1 add up to at most n |
| Geometry.Area | RFCalc.py:47 | the area of a valid box is positive under both conventions |
| Geometry.SharedSpan | RFCalc.py:57-62 | the shared extent `max(0, min(hi) − max(lo) + 1)` is at most the second interval's inclusive length, and exactly that length when the second lies inside the first |
| Geometry.Intersection | RFCalc.py:57-62 | the pixel-inclusive intersection `w * h` of both ports (also references/RFCalc.cpp:78-83); `InclusiveOverlapInUnitInterval` bounds it by the candidate's inclusive area, and `ContainedOverlapIsOne` gives its value for a contained candidate |
| Geometry.Overlap | RFCalc.py:57-63 | the intersection over the candidate's area under either normaliser (references/RFCalc.cpp:84 for `rect.area()`); its properties are stated by `InclusiveOverlapInUnitInterval`, `ContainedOverlapIsOne`, `ContainedRectOverlapExceedsOne` and `RectOverlapAtLeastInclusive` |
| Geometry.InclusiveOverlapInUnitInterval | RFCalc.py:57-63 | with the +1-inclusive area, the overlap fraction of two valid boxes lies in [0, 1] |
| Geometry.ContainedOverlapIsOne | RFCalc.py:57-63 | a candidate inside the keeper has an inclusive overlap of exactly 1.0 |
| Geometry.ContainedRectOverlapExceedsOne | references/RFCalc.cpp:78-84 | with the `rect.area()` normaliser, a contained candidate's overlap is above 1 |
| Geometry.RectOverlapAtLeastInclusive | references/RFCalc.cpp:84 | for one keeper and one candidate, the C++ overlap is never below the Python one |
| Crop.CropMargins | references/RFCalc.cpp:22-27 | the four pixel margins, each the product of an extent and its percentage rounded toward zero (`ScaleTrunc`); `CropWithinBounds` and `StageCropKeepsMiddle` state what they leave of the image |
| Crop.SliceBound | RFCalc.py:18 | Python slice-bound normalisation: in range it is unchanged, a negative bound counts from the end, and the result is clamped to [0, n] |
| Crop.PySlice | RFCalc.py:18 | a slice is the elements from the normalised start, and equals `s[lo..hi]` for in-range bounds |
| Crop.PyWindow | RFCalc.py:18 | the window selected by the two Python slices always lies inside the image |
| Crop.Cut | references/RFCalc.cpp:28 | a sub-matrix has the window's size, and pixel (i, j) is source pixel (rowLo + i, colLo + j) |
| Crop.PySliceCrop | RFCalc.py:18 | `image[top:height-bottom, left:width-right]` for any pixel margins is a well-formed image no larger than its source |
| Crop.PyCrop | RFCalc.py:12-19 | the Python crop is a well-formed image no larger than its source |
| Crop.Collapsed | references/RFCalc.cpp:28 | an image as an OpenCV matrix holds it, a matrix without pixels being 0×0; `RangeCrop` and `RangeCropAgreesWithSlice` state where this shape differs from numpy's |
| Crop.RangeCrop | references/RFCalc.cpp:28 | for any pixel margins, an accepted sub-matrix is a well-formed image no larger than its source, and it has no rows exactly when it has no columns (OpenCV releases an empty sub-matrix to 0×0) |
| Crop.CppCrop | references/RFCalc.cpp:21-28 | whenever the C++ crop succeeds, its result is a well-formed image |
| Crop.SliceCropIsWindowCut | RFCalc.py:18 | for any margins, the slice crop is exactly the cut of the window its two slices select |
| Crop.PyCropIsWindowCut | RFCalc.py:12-19 | the Python crop is exactly the cut of the window its slices select |
| Crop.RangeCropAgreesWithSlice | references/RFCalc.cpp:28 | for any margins the `Range` sub-matrix accepts, it equals the Python slice crop when that has pixels, and is 0×0 when it has none |
| Crop.CppCropAgreesWithPython | references/RFCalc.cpp:21-28 | wherever `cropImage` does not throw, it returns the image `crop_image` returns when that has pixels, and the 0×0 matrix when it has none |
| Crop.CropWithinBounds | RFCalc.py:12-19 | for non-negative percentages summing to at most 1 per axis, the Python crop has height − top − bottom rows and width − left − right columns starting at (top, left), and the C++ crop succeeds with that image as a matrix |
| Crop.StageCropKeepsMiddle | references/RFCalc.cpp:11 | the stage's 10%/10%/5%/5% crop always succeeds and keeps width − 2⌊w/10⌋ columns and height − 2⌊h/20⌋ rows; of an image with pixels both ports keep the same non-empty middle |
| Crop.OversizedMarginDiverges | references/RFCalc.cpp:28 | for any image, a top (left) margin beyond the image makes the C++ crop throw, while the Python crop has no rows (no columns) |
| Crop.OversizedEndMarginWraps | RFCalc.py:18 | for any image, a bottom (right) margin beyond the image makes the C++ crop throw; Python counts the negative stop from the end, keeping 2·height − bottom − top rows below twice the height and none from there on (columns alike) |
| Contours.BoundingBox | RFCalc.py:34-35 | `[x, y, x + w, y + h]` is a valid box with the contour's corner and size |
| Contours.Kept | RFCalc.py:31-33 | a contour is kept iff it is in the input and its area exceeds the threshold |
| Contours.FindBoxes | RFCalc.py:30-36 | the boxes are valid, at most one per contour, and are exactly the bounding boxes of contours whose area exceeds the threshold |
| Contours.BoxesOfMembers | RFCalc.py:34-35 | a list of one box per contour holds exactly those contours' bounding boxes |
| Contours.KeptAppend | RFCalc.py:30-35 | the filter keeps scan order: what it keeps of two joined lists is what it keeps of the first, then of the second |
| Contours.FindBoxesAppend | RFCalc.py:30-36 | the boxes keep scan order the same way, one per kept contour |
| Contours.KeptMonotone | RFCalc.py:31-35 | a higher threshold keeps exactly the lower threshold's result filtered by the higher one, in the same order (a lower threshold yields a superset in scan order) |
| Contours.FindBoxesMonotone | references/RFCalc.cpp:47-52 | the same monotonicity, for the boxes the filter emits |
| Contours.KeptAllBelowEveryArea | RFCalc.py:33 | when the threshold is below every area, every contour is kept |
| IndexSort.InsertByBottom | references/RFCalc.cpp:65-67 | inserting an index adds exactly that index and keeps all indices in range |
| IndexSort.InsertKeepsSorted | RFCalc.py:48 | inserting an index into a list sorted by bottom edge keeps it sorted |
| IndexSort.InsertKeepsDistinct | RFCalc.py:48 | inserting a new index keeps the list free of repeats |
| IndexSort.SortPrefix | RFCalc.py:48 | sorting the indices 0..n−1 yields each of them once, in ascending order of `y2` |
| IndexSort.ArgSortByBottom | references/RFCalc.cpp:63-67 | the argsort is a permutation of 0..n−1 (every index once), sorted ascending by `y2` |
| Positions.DeleteAt | RFCalc.py:68 | removing non-negative positions yields no more elements than it was given, all taken from the input |
| Positions.DeleteAtDependsOnlyOnRange | RFCalc.py:68 | for the removal by non-negative positions, only positions that name an element matter |
| Positions.DeleteAtInPrefix | RFCalc.py:68 | deleting positions inside a prefix leaves the suffix untouched |
| Positions.DeleteAtNothing | RFCalc.py:68 | deleting no in-range position leaves the list unchanged |
| Positions.NpDelete | RFCalc.py:68 | `np.delete` raises `IndexError` iff some position lies outside [−len, len); otherwise it yields no more elements than it was given, all taken from the input |
| Positions.NpDeleteInRange | RFCalc.py:68 | for positions that all name an element, `np.delete` is the removal by those positions |
| Positions.NpDeleteWrapsNegative | RFCalc.py:68 | a negative position counts from the end: deleting −1 of [10, 20, 30] leaves [10, 20] |
| Positions.NpDeleteRejectsPastEnd | RFCalc.py:68 | a position at or past the end raises `IndexError` |
| Suppression.Suppresses | RFCalc.py:57-65 | keeper i drops candidate j iff j's overlap with i exceeds the threshold; `ContainedIsSuppressed` and `RectDropsWhenInclusiveDrops` state its properties |
| Suppression.OverlapRule | RFCalc.py:57-65 | the drop rule of a list of boxes holds for (i, j) exactly when keeper i drops candidate j; it is what instantiates the generic loop lemmas for `non_max_suppression` |
| Suppression.OverlapPositions | RFCalc.py:55-66 | the collected positions are exactly those before `last` whose overlap with the keeper exceeds the threshold (both directions), in ascending order |
| Suppression.SuppressList | RFCalc.py:54-66 | `suppress` starts with `last`, and the other positions follow in ascending order below `last` |
| Suppression.Survivors | RFCalc.py:64-68 | the entries before `last` that the keeper lets through, never more than there were; `SurvivorsMembers`, `SurvivorsKeepSorted`, `SurvivorsKeepDistinct` and `DeleteOverlappingIsSurvivors` state what they are |
| Suppression.SurvivorsMembers | RFCalc.py:55-66 | j survives iff it is among the entries before `last` and the keeper does not drop it |
| Suppression.SurvivorsKeepSorted | RFCalc.py:68 | the survivors of a sorted list are sorted |
| Suppression.SurvivorsKeepDistinct | RFCalc.py:68 | the survivors of a list without repeats have no repeats |
| Suppression.DeleteOverlappingIsSurvivors | RFCalc.py:68 | deleting exactly the positions the keeper overlaps leaves its survivors, in order |
| Suppression.NextIndices | RFCalc.py:50-68 | every pass removes at least the keeper, so the loop terminates |
| Suppression.NextIndicesIsNpDelete | RFCalc.py:54-68 | every position a pass hands to `np.delete` names an element, so the call never wraps or raises and yields the pass's result |
| Suppression.NextIndicesAreSurvivors | RFCalc.py:54-68 | `np.delete(idxs, suppress)` is the list of survivors of the keeper among the earlier entries |
| Suppression.NextIndicesIsFilter | RFCalc.py:55-68 | after a pass, an index remains iff it came before the keeper and the keeper does not drop it |
| Suppression.Greedy | RFCalc.py:50-68 | the loop makes at most one pick per index |
| Suppression.GreedyPicksEntries | RFCalc.py:51-53 | the first pick is the entry at `last`, and every pick is one of the indices |
| Suppression.GreedyLowOverlap | RFCalc.py:55-66 | no pick drops a later pick: a later pick overlaps an earlier one by at most the threshold |
| Suppression.CoveredPrepend | RFCalc.py:53 | an entry covered by the later picks stays covered when a keeper is picked in front |
| Suppression.GreedyCovers | RFCalc.py:55-68 | every index is picked, or has overlap above the threshold with some pick |
| Suppression.GreedyDistinct | RFCalc.py:50-54 | from indices without repeats, no index is picked twice |
| Suppression.KeeperIsLowest | RFCalc.py:48-52 | in a list sorted by bottom edge, the keeper at `last` has the largest `y2` |
| Suppression.GreedyNonIncreasing | RFCalc.py:48-53 | from a sorted list, the picks come out with non-increasing `y2` |
| Suppression.NextKeepsSorted | RFCalc.py:68 | a pass keeps the index list sorted |
| Suppression.NonMaxSuppressionPicks | RFCalc.py:38-70 | picks are empty iff the input is; they are distinct indices into the input, never more than there are boxes |
| Suppression.NonMaxSuppressionPicksOrdered | RFCalc.py:48-68 | the first pick has the largest `y2`; `y2` never increases along the picks; later picks overlap earlier ones by at most the threshold |
| Suppression.NonMaxSuppressionPicksCover | RFCalc.py:50-68 | every box is picked, or overlapped above the threshold by a pick |
| Suppression.SortedGreedyBasics | RFCalc.py:48-68 | from any order of all the indices, the loop picks something iff there are boxes, and picks distinct indices in range |
| Suppression.SortedGreedyProperties | RFCalc.py:48-68 | the ordering and low-overlap guarantees hold for any sorted order of all the indices, whatever the tie order |
| Suppression.PicksLowOverlap | RFCalc.py:55-66 | the pairwise low overlap of the picks, as an overlap fraction |
| Suppression.PicksCover | RFCalc.py:55-68 | the coverage of every input index, as an overlap fraction |
| Suppression.Select | RFCalc.py:70 | `rectangles[pick]` has one box per pick, the k-th being the box at pick k |
| Suppression.NonMaxSuppression | RFCalc.py:38-70 | the result is empty iff the input is; it is no longer than the input, and holds valid boxes taken from it |
| Suppression.NonMaxSuppressionOrdered | RFCalc.py:48-70 | the result starts with a lowest box, its bottom edges never increase, and no kept box overlaps an earlier kept box above the threshold |
| Suppression.NonMaxSuppressionCovers | RFCalc.py:55-70 | every input box is kept, or overlaps a kept box above the threshold |
| Suppression.SelectCovers | RFCalc.py:70 | a box that is picked, or overlapped above the threshold by a pick, is kept or overlaps a kept box above the threshold |
| Suppression.ContainedOverlapAtLeastOne | references/RFCalc.cpp:78-86 | under either normaliser, a candidate inside the keeper has overlap at least 1 |
| Suppression.ContainedIsSuppressed | RFCalc.py:57-66 | a box inside the keeper is dropped whenever the threshold is below 1 |
| Suppression.ContainedNeverPickedAfter | RFCalc.py:50-68 | with a threshold below 1, no pick lies inside an earlier pick |
| Suppression.RectDropsWhenInclusiveDrops | references/RFCalc.cpp:84-86 | for one keeper and one candidate, the `rect.area()` comparison drops whatever the pixel-inclusive one drops |
| Suppression.RectPassCollectsMore | references/RFCalc.cpp:76-89 | in one pass over the same entries, the C++ keeper collects every position the Python keeper collects |
| CppSuppression.VectorErase | references/RFCalc.cpp:92 | an erase is valid iff the position names an element, and then shifts the later elements down by one |
| CppSuppression.EraseInOrder | references/RFCalc.cpp:91-93 | a run of erases that are all valid shortens the vector by their count |
| CppSuppression.EraseInOrderAppend | references/RFCalc.cpp:91-93 | erasing a + b is erasing a and then b from what is left |
| CppSuppression.EraseDescendingIsDeleteAt | references/RFCalc.cpp:91-93 | erasing in-range positions in strictly descending order stays in range, and equals deleting them all at once |
| CppSuppression.EraseAsWritten | references/RFCalc.cpp:91-93 | the back-to-front erase loop; `EraseReverseOutcome` and `EraseAsWrittenOutcome` state when it stays in range and what it leaves |
| CppSuppression.OthersReversed | references/RFCalc.cpp:76-89 | the positions after `last` in `suppress`, reversed, are in range and strictly descending |
| CppSuppression.EraseReverseOutcome | references/RFCalc.cpp:91-93 | the back-to-front loop erases only in range iff `suppress` holds only `last`; otherwise its final erase at `last` finds a vector of \|idxs\| − (\|suppress\| − 1) elements |
| CppSuppression.EraseAsWrittenOutcome | references/RFCalc.cpp:69-93 | the same outcome, for the `suppress` a pass actually collects |
| CppSuppression.EraseDescendingIsDeleteAtOnce | references/RFCalc.cpp:91-93 | erasing `last` first and then the others from the highest down is `np.delete` of the whole list |
| CppSuppression.SameMembers | references/RFCalc.cpp:91-93 | the corrected erase order erases the same positions as `suppress` |
| CppSuppression.EraseDescendingIsOnePass | references/RFCalc.cpp:69-93 | the corrected erase order performs exactly one pass of the Python loop |
| CppSuppression.PrependPick | references/RFCalc.cpp:72 | picking a keeper puts it in front and keeps the run's outcome |
| CppSuppression.CppGreedyAsWritten | references/RFCalc.cpp:69-94 | the literal loop makes at most one pick per index |
| CppSuppression.SurvivorsWhenNothingSuppressed | references/RFCalc.cpp:76-89 | a keeper that drops nothing leaves every earlier entry |
| CppSuppression.SurvivorsWhenSomethingSuppressed | references/RFCalc.cpp:76-89 | a keeper that drops an entry leaves fewer than all earlier entries |
| CppSuppression.AsWrittenStep | references/RFCalc.cpp:69-93 | a literal pass erases only in range iff the keeper drops nothing, and then it leaves the Python pass's result |
| CppSuppression.QuietPass | references/RFCalc.cpp:73-93 | a `suppress` holding only `last` means every earlier entry survives |
| CppSuppression.BusyPass | references/RFCalc.cpp:73-93 | a longer `suppress` means some earlier entry is dropped |
| CppSuppression.CppAsWrittenErasesInRangeOnlyWithoutSuppression | references/RFCalc.cpp:69-94 | for any drop rule and start order, the literal C++ loop performs no out-of-range erase iff the Python loop keeps every index (no keeper ever drops one), and then both pick the same |
| CppSuppression.CppGreedyCorrected | references/RFCalc.cpp:69-94 | for any drop rule and start order, the C++ loop with the erase order corrected picks exactly what the Python loop picks |
| CppSuppression.CppNonMaxSuppressionAsWritten | references/RFCalc.cpp:57-96 | `nonMaxSuppression` as written never picks more boxes than it is given; `CppNonMaxSuppressionErasesInRange` relates it to the Python function |
| CppSuppression.CppNonMaxSuppressionErasesInRange | references/RFCalc.cpp:57-96 | `nonMaxSuppression` as written performs no out-of-range erase iff the Python function (with the `rect.area()` normaliser) picks every box, and then its picks are the same |
| CppSuppression.CppNonMaxSuppressionCorrected | references/RFCalc.cpp:57-96 | with the erase order corrected, `nonMaxSuppression` picks exactly what the Python function with the `rect.area()` normaliser picks |
| CppSuppression.NestedPairOrder | references/RFCalc.cpp:63-67 | the nested pair sorts as [0, 1] |
| CppSuppression.NestedPairDrops | references/RFCalc.cpp:78-86 | under either area normaliser, the lower box of the pair drops the upper one at threshold 0.2 |
| CppSuppression.NestedPairPass | references/RFCalc.cpp:73-89 | under either normaliser, the single pass over the pair collects two positions |
| CppSuppression.ShapeFits | references/RFCalc.cpp:73-89 | `suppress` never holds more positions than there are indices |
| CppSuppression.KeeperDropsSomething | references/RFCalc.cpp:76-89 | a keeper that drops an entry adds a position beyond `last` |
| CppSuppression.CppAsWrittenInvalidAtFirstDrop | references/RFCalc.cpp:69-93 | when the first keeper drops anything, the literal loop reaches an out-of-range erase in its first pass, having picked only that keeper |
| CppSuppression.CppInvalidEraseOnNestedPair | references/RFCalc.cpp:57-96 | on the nested pair at 0.2, the literal port erases position 1 of a one-element vector after picking box 1 |
| CppSuppression.CorrectedKeepsNestedPairLower | references/RFCalc.cpp:57-96 | on the same input, the corrected loop picks only the lower box, and so does the Python function with its +1-inclusive area |
| CppSuppression.NestedPairGreedy | RFCalc.py:50-68 | from the order [0, 1], under either area normaliser, the loop keeps box 1 and nothing else |
| Readings.Accepted | RFCalc.py:74-76 | the aspect and area filter with a true division (also references/RFCalc.cpp:100-102); `AcceptedIntegerForm` gives its integer form and `FlatBoxRejected` its zero-height case |
| Readings.AcceptedIntegerForm | RFCalc.py:74-76 | for a box of positive height, the filter holds iff w ≤ maxAspect·h and w·h exceeds the minimum area |
| Readings.FlatBoxRejected | RFCalc.py:74-76 | a box of height zero never passes the filter |
| Readings.PyCenter | RFCalc.py:78-79 | `(y + y2) // 2` is the c with 2c ≤ y + y2 < 2c + 2 |
| Readings.CppCenter | references/RFCalc.cpp:104-105 | `y + height / 2` halves the extent toward zero: down for a non-negative extent, up for a negative one |
| Readings.CentersAgree | references/RFCalc.cpp:104-105 | `y + height / 2` in C++ equals Python's `(y + y2) // 2` whenever the extent is non-negative |
| Readings.CentersDisagreeOnNegativeExtent | references/RFCalc.cpp:104-105 | on a negative odd extent the two centres differ: Python rounds down, C++ rounds toward zero |
| Readings.CenterInside | RFCalc.py:78-79 | the centre the Python version marks lies inside the box it belongs to |
| Readings.ReadingOf | RFCalc.py:78-81 | the reading keeps its box, its centre row halves y + y2 downward, and its value is the normalised centre row |
| Readings.Normalise | RFCalc.py:81 | `1 - c / 500`; `NormaliseRange` states its endpoints, its range and that it falls as the row goes down |
| Readings.NormaliseRange | RFCalc.py:81 | the reading is 1 at row 0 and 0 at row 500, lies in [0, 1] iff the row is in 0..500, and falls as the row goes down |
| Readings.ExtractReadings | RFCalc.py:72-82 | each reading is that of an input box passing the filter, and each passing input box gets a reading |
| Readings.ExtractReadingsAppend | RFCalc.py:73 | readings follow the input order: the readings of a joined list are the joined readings |
| Readings.ReadingInUnitInterval | RFCalc.py:79-81 | a box with 0 ≤ y1 < y2 ≤ 500 reads between 0 and 1 |
| Readings.CppReadingAgrees | references/RFCalc.cpp:104-107 | for valid boxes the C++ centre and reading equal the Python ones |
| Search.Round | RFCalc.py:106-107 | a round's boxes are valid and no more numerous than the contours |
| Search.Relax | RFCalc.py:104-110 | the loop runs 1..fuel+1 rounds; it lowers the threshold by exactly 100 per round; it reports reaching the target iff its final boxes number at least 7; an unreached outcome has used all its fuel |
| Search.RelaxRunsRounds | RFCalc.py:104-110 | the final boxes are those of the last round run, and every earlier round had fewer than 7 |
| Search.RelaxDrawsFirstRoundFirst | RFCalc.py:108 | the first round's readings are drawn before any other |
| Search.RelaxDrawsEveryRound | RFCalc.py:105-110 | the image carries the readings of every round that ran, round after round |
| Search.RelaxDrawsLastRoundLast | RFCalc.py:105-110 | the readings of the last round's boxes, the ones the stage reports, are the last ones drawn |
| Search.RelaxDrawsOnlyRoundBoxes | references/RFCalc.cpp:138-144 | every reading drawn labels an accepted box of a round that ran |
| Search.RelaxFuelIrrelevant | RFCalc.py:105-110 | once the target is reached, a larger budget changes nothing |
| Search.RelaxReachesIffSomeRoundDoes | RFCalc.py:105-110 | the loop reaches the target within its budget iff one of the rounds it may run has at least 7 boxes |
| Search.RoundsSteadyBelowZero | RFCalc.py:33 | with non-negative contour areas, every round below zero returns the same boxes |
| Search.NeverReachedBelowZero | RFCalc.py:105-110 | once the threshold is below zero with fewer than 7 boxes, no budget reaches the target (the loop as written never stops) |
| Search.NoContoursNeverReached | references/RFCalc.cpp:138-144 | an image without contours never reaches the target, from 200 and for any budget |
| Search.RoundBudget | references/RFCalc.cpp:143 | the budget ends at the first threshold below zero |
| Search.RelaxWithFloor | RFCalc.py:104-110 | the corrected search reports success iff its last round has at least 7 boxes, and it gives up only once the threshold is negative |
| Search.RelaxWithFloorDrawsEveryRound | RFCalc.py:105-110 | the corrected search draws every round it runs, in round order, ending with its last round's readings |
| Search.RelaxWithFloorIsBudgetedLoop | RFCalc.py:104-110 | the corrected search is the literal loop run for the budget |
| Search.RelaxWithFloorDecides | RFCalc.py:104-110 | the corrected search succeeds iff some run of the literal loop does; it then agrees with every larger budget, and on failure no budget succeeds |
| Search.NeverReachedWithinOrBeyond | RFCalc.py:104-110 | missing the target within the budget means missing it for every budget |
| Search.MeasurementSearchDecides | RFCalc.py:98-110 | from 200 the corrected search is the literal loop limited to four rounds (thresholds 200, 100, 0, −100), and it fails only where the loop as written runs forever |

## Left out

- Image preprocessing is not modelled because it is library numerics and
  floating point. This covers reading the file, the resize to 256×500,
  greyscale, Gaussian blur, Scharr gradients, the magnitude threshold,
  `findContours`, `contourArea` and `boundingRect`. A contour enters the model
  as its reported area and bounding rectangle.
- Drawing is left out because it is a presentation side effect: rectangles,
  centre dots, label text and its formatting (`f'{:.2f}'`,
  `to_string(...).substr(0, 4)`), and PIL fonts. The model keeps the readings
  that would be drawn, in drawing order: every round's, one round after
  another, ending with the last round's (`Search.RelaxDrawsEveryRound`).
- Document detection and rectification (`Detection/DocScan.py`) is a chain of
  OpenCV calls. Its helper module `utlis` is not part of this model. The web
  and command-line entry points (`app.py`, `main.py`), file upload and
  `imwrite` are left out too.
- Floating point is not modelled. Crop percentages are exact fractions and are
  truncated exactly. Overlap fractions and readings are exact reals, so a
  double's rounding (for instance `int(width * 0.10)` computed on a binary
  double) is not modelled.
- 32-bit `int` overflow in the C++ port is not modelled: integers are
  unbounded. Pixel coordinates of a 256×500 image are far from the limits.
- Tie order of `np.argsort` / `std::sort` is not modelled exactly. Neither
  sort is stable by default, and `ArgSortByBottom` is one stable choice. The
  suppression guarantees (`Suppression.SortedGreedyProperties`) hold for every
  order sorted by bottom edge.
- Suppression.NonMaxSuppression: the two area normalisers are not ordered
  over a whole run. For each pair (`RectDropsWhenInclusiveDrops`) and each
  pass (`RectPassCollectsMore`) the C++ comparison drops at least what the
  Python one drops. But a box only C++ drops is no longer a keeper, so C++ can
  keep boxes Python drops. For instance, on (3,3,10,10), (0,0,4,4), (0,0,1,1)
  and (2,0,3,1) at 0.2, C++ drops (0,0,4,4) against the first box (overlap
  4/16, where Python has 4/25). Python keeps it and then drops the two boxes
  inside it, which C++ keeps.
- Suppression.NonMaxSuppression requires valid boxes (x1 < x2, y1 < y2), which
  holds for `boundingRect` output. The overlap divides by the candidate's area.
- The C++ port picks `Rect`s rather than indices. The model keeps indices;
  `Select` turns them into boxes.
- The C++ `mainProcess` draws onto a `resizedImg` that is never assigned.
  Drawing is outside the model, so this has no counterpart here.
- Idempotence of suppression (suppressing the output again changes nothing)
  is not claimed. Because the overlap is asymmetric, two kept boxes with the
  same bottom edge may be visited in the other order on a second run.
- CppSuppression.CppGreedyAsWritten: what the C++ program does after an
  erase at or past `end()` is undefined behaviour and is not modelled; the
  run stops at that erase with its position and the vector's size.
- The `gradientThreshold` of 50 is fixed. It only feeds the thresholding that
  is outside the model.

## Findings

| source | as written | input that shows it | evidently intended | confidence | as-written member | corrected member |
|---|---|---|---|---|---|---|
| references/RFCalc.cpp:91-93 | `suppress` is erased back to front, so `last` (its first entry) is erased after the other positions have shifted the vector; `idxs.begin() + last` is then at `end()`, or past it when the keeper drops more than one entry | boxes (0,0,10,10) and (0,0,10,20) at threshold 0.2: the keeper (index 1) drops the contained box, the vector shrinks to one element, and erase is asked for position 1 | erase `last` first, then the other positions from the highest down, which is Python's `np.delete` | not executed | CppSuppression.CppInvalidEraseOnNestedPair | CppSuppression.CppNonMaxSuppressionCorrected |
| RFCalc.py:105-110 | the threshold drops by 100 with no floor, and the loop stops only at 7 boxes | an image with no contours (or fewer than 7 boxes after suppression once every contour is kept): every round below zero repeats the same result and the loop never ends | stop after the first round with a negative threshold, since no later round can differ, and report that the target was missed | not executed | Search.NoContoursNeverReached | Search.RelaxWithFloor |

The second finding holds for the C++ loop (references/RFCalc.cpp:138-144) as
well. `Search.NeverReachedBelowZero` states it for any image, and
`Search.RelaxWithFloorDecides` proves the corrected search right. The `Search`
rounds use the Python suppression, so for the C++ loop they assume the
corrected erase order. As written, a C++ round whose keeper drops a box first
reaches the out-of-range erase of the first finding.
`CppSuppression.CppNonMaxSuppressionErasesInRange` states the first finding
in general: the literal port erases only in range exactly when no keeper ever
drops a box. An erase at or past `end()` breaks the precondition of
`vector::erase`, so its behaviour is undefined; the model stops the run there and does not say
what the program does next.

=== FILE: contours.dfy ===
/**
 * The area filter of contour detection. Thresholding the gradient field,
 * tracing the contours, measuring their area and taking their bounding
 * rectangles are library numerics; a contour enters the model as the area
 * `contourArea` reports and the rectangle `boundingRect` reports.
 */
module Contours {
  import opened IntMath
  import opened Geometry

  /** One traced contour: its enclosed area and its bounding rectangle
      (x, y, w, h), whose width and height are at least one pixel. */
  datatype Contour = Contour(area: real, x: int, y: int, w: Pos, h: Pos)

  /** The box appended for a kept contour, `[x, y, x + w, y + h]`. */
  function BoundingBox(c: Contour): (b: Box)
    ensures b.Valid()
    ensures b.x1 == c.x && b.y1 == c.y && b.Width() == c.w && b.Height() == c.h
  {
    Box(c.x, c.y, c.x + c.w, c.y + c.h)
  }

  /** The contours that pass `area > minArea`, in scan order. */
  function Kept(cs: seq<Contour>, minArea: int): (r: seq<Contour>)
    ensures |r| <= |cs|
    ensures forall c :: c in r <==> c in cs && c.area > minArea as real
  {
    if |cs| == 0 then []
    else (if cs[0].area > minArea as real then [cs[0]] else []) + Kept(cs[1..], minArea)
  }

  /** The rectangles the detector returns for one area threshold: one box per
      contour whose area exceeds the threshold, in scan order. */
  function FindBoxes(cs: seq<Contour>, minArea: int): (r: seq<Box>)
    ensures AllValid(r)
    ensures |r| <= |cs|
    ensures forall b :: b in r <==> exists c :: c in cs && c.area > minArea as real && b == BoundingBox(c)
  {
    var kept := Kept(cs, minArea);
    var r := BoxesOf(kept);
    BoxesOfMembers(kept, r);
    r
  }

  /** One bounding box per contour, in order. */
  function BoxesOf(kept: seq<Contour>): (r: seq<Box>)
    ensures |r| == |kept| && forall k :: 0 <= k < |r| ==> r[k] == BoundingBox(kept[k])
  {
    seq(|kept|, k requires 0 <= k < |kept| => BoundingBox(kept[k]))
  }

  /** A list of boxes taken one per contour holds exactly the boxes of those
      contours. */
  lemma BoxesOfMembers(kept: seq<Contour>, r: seq<Box>)
    requires |r| == |kept| && forall k :: 0 <= k < |r| ==> r[k] == BoundingBox(kept[k])
    ensures forall b :: b in r <==> exists c :: c in kept && b == BoundingBox(c)
  {
    forall b | b in r ensures exists c :: c in kept && b == BoundingBox(c) {
      var k :| 0 <= k < |r| && r[k] == b;
      assert kept[k] in kept;
    }
    forall c | c in kept ensures BoundingBox(c) in r {
      var k :| 0 <= k < |kept| && kept[k] == c;
      assert r[k] == BoundingBox(c);
    }
  }

  /** The filter follows scan order: the contours kept from two lists
      scanned one after the other are those kept from the first, then those
      kept from the second. */
  lemma {:induction false} KeptAppend(a: seq<Contour>, b: seq<Contour>, minArea: int)
    ensures Kept(a + b, minArea) == Kept(a, minArea) + Kept(b, minArea)
  {
    if |a| > 0 {
      assert (a + b)[0] == a[0] && (a + b)[1..] == a[1..] + b;
      KeptAppend(a[1..], b, minArea);
    } else {
      assert a + b == b;
    }
  }

  /** The boxes follow scan order too: one box per kept contour of the first
      list, then one per kept contour of the second. */
  lemma FindBoxesAppend(a: seq<Contour>, b: seq<Contour>, minArea: int)
    ensures FindBoxes(a + b, minArea) == FindBoxes(a, minArea) + FindBoxes(b, minArea)
  {
    KeptAppend(a, b, minArea);
    BoxesOfAppend(Kept(a, minArea), Kept(b, minArea));
  }

  /** Boxes of joined contour lists are the joined boxes. */
  lemma BoxesOfAppend(x: seq<Contour>, y: seq<Contour>)
    ensures BoxesOf(x + y) == BoxesOf(x) + BoxesOf(y)
  {
    var r := BoxesOf(x + y);
    assert |r| == |BoxesOf(x) + BoxesOf(y)|;
    forall k | 0 <= k < |r| ensures r[k] == (BoxesOf(x) + BoxesOf(y))[k] {
      assert r[k] == BoundingBox((x + y)[k]);
    }
  }

  /** Raising the threshold keeps exactly those contours of the lower
      threshold's result that also pass the higher one, in the same order:
      a lower threshold yields a superset, scan order preserved. */
  lemma {:induction false} KeptMonotone(cs: seq<Contour>, lo: int, hi: int)
    requires lo <= hi
    ensures Kept(Kept(cs, lo), hi) == Kept(cs, hi)
  {
    if |cs| > 0 {
      KeptMonotone(cs[1..], lo, hi);
      var rest := Kept(cs[1..], lo);
      if cs[0].area > hi as real {
        assert Kept(cs, lo) == [cs[0]] + rest;
        assert ([cs[0]] + rest)[1..] == rest;
      } else if cs[0].area > lo as real {
        assert Kept(cs, lo) == [cs[0]] + rest;
        assert ([cs[0]] + rest)[1..] == rest;
      } else {
        assert Kept(cs, lo) == rest;
      }
    }
  }

  /** The boxes of a higher threshold are the boxes of a lower threshold's
      survivors filtered again: never more boxes, each one also found at the
      lower threshold. */
  lemma FindBoxesMonotone(cs: seq<Contour>, lo: int, hi: int)
    requires lo <= hi
    ensures FindBoxes(cs, hi) == FindBoxes(Kept(cs, lo), hi)
    ensures |FindBoxes(cs, hi)| <= |FindBoxes(cs, lo)|
    ensures forall b :: b in FindBoxes(cs, hi) ==> b in FindBoxes(cs, lo)
  {
    KeptMonotone(cs, lo, hi);
    KeptMonotone(cs, lo, lo);
    assert |FindBoxes(cs, hi)| == |Kept(cs, hi)|;
    assert |FindBoxes(cs, lo)| == |Kept(cs, lo)|;
  }

  /** Once the threshold is below every contour's area, every contour is kept,
      so lowering it further changes nothing. */
  lemma {:induction false} KeptAllBelowEveryArea(cs: seq<Contour>, minArea: int)
    requires forall k :: 0 <= k < |cs| ==> cs[k].area > minArea as real
    ensures Kept(cs, minArea) == cs
  {
    if |cs| > 0 {
      KeptAllBelowEveryArea(cs[1..], minArea);
      assert [cs[0]] + cs[1..] == cs;
    }
  }
}

=== FILE: cpp_suppression.dfy ===
/**
 * The erase loop of the C++ port's `nonMaxSuppression`. The port collects
 * `suppress` exactly as the Python version does (the keeper's position `last`
 * first, then the overlapping positions in ascending order) but removes them
 * one `std::vector::erase` at a time, walking `suppress` from its end to its
 * start. Every erase shifts the later elements down by one, so once any other
 * position has been erased, `last` no longer names an element: the final
 * erase is passed `end()` when one other position was erased, and an
 * iterator past `end()` when several were. `vector::erase` requires a
 * position that names an element, so that call has undefined behaviour;
 * what the program then does is not fixed by the language. The model stops the run at that call and
 * makes it an explicit `OutOfRange` outcome.
 */
module CppSuppression {
  import opened Geometry
  import opened IndexSort
  import opened Positions
  import opened Suppression

  /** Outcome of erasing from a vector: the remaining elements, or the first
      erase whose position was not an element. */
  datatype Erased<T> = Ok(value: seq<T>) | OutOfRange(pos: int, size: nat)

  /** `v.erase(v.begin() + p)`: removes the element at p and shifts the later
      ones down; p must name an element. */
  function VectorErase<T>(s: seq<T>, p: int): (r: Erased<T>)
    ensures r.Ok? <==> 0 <= p < |s|
    ensures r.Ok? ==> |r.value| == |s| - 1
    ensures r.Ok? ==> forall k :: 0 <= k < |r.value| ==> r.value[k] == (if k < p then s[k] else s[k + 1])
    ensures r.OutOfRange? ==> r == OutOfRange(p, |s|)
  {
    if 0 <= p < |s| then Ok(s[..p] + s[p + 1..]) else OutOfRange(p, |s|)
  }

  /** Erase the positions of ps one after the other, each relative to the
      vector as the previous erases left it; stop at the first bad position. */
  function EraseInOrder<T>(s: seq<T>, ps: seq<int>): (r: Erased<T>)
    ensures r.Ok? ==> |r.value| == |s| - |ps|
  {
    if |ps| == 0 then Ok(s)
    else
      match VectorErase(s, ps[0])
      case OutOfRange(p, n) => OutOfRange(p, n)
      case Ok(t) => EraseInOrder(t, ps[1..])
  }

  /** Erasing a + b is erasing a, then b from what is left. */
  lemma {:induction false} EraseInOrderAppend<T>(s: seq<T>, a: seq<int>, b: seq<int>)
    ensures EraseInOrder(s, a + b)
            == match EraseInOrder(s, a)
               case OutOfRange(p, n) => OutOfRange(p, n)
               case Ok(t) => EraseInOrder(t, b)
  {
    if |a| > 0 {
      assert (a + b)[0] == a[0] && (a + b)[1..] == a[1..] + b;
      match VectorErase(s, a[0])
      case OutOfRange(p, n) =>
      case Ok(t) => EraseInOrderAppend(t, a[1..], b);
    } else {
      assert a + b == b;
    }
  }

  /** `s` back to front. */
  function Reverse(s: seq<int>): (r: seq<int>)
    ensures |r| == |s|
    ensures forall k :: 0 <= k < |s| ==> r[k] == s[|s| - 1 - k]
  {
    if |s| == 0 then [] else Reverse(s[1..]) + [s[0]]
  }

  /** Strictly decreasing positions. */
  predicate Descending(ps: seq<int>)
  {
    forall a, b :: 0 <= a < b < |ps| ==> ps[a] > ps[b]
  }

  /** Erasing distinct in-range positions from the highest down never shifts
      a position still to come, so it succeeds and removes exactly those
      positions at once. */
  lemma {:induction false} EraseDescendingIsDeleteAt<T>(s: seq<T>, ps: seq<int>)
    requires forall k :: 0 <= k < |ps| ==> 0 <= ps[k] < |s|
    requires Descending(ps)
    ensures EraseInOrder(s, ps) == Ok(DeleteAt(s, ps))
    ensures |DeleteAt(s, ps)| == |s| - |ps|
  {
    if |ps| == 0 {
      DeleteAtNothing(s, ps);
    } else {
      var p := ps[0];
      var t := s[..p] + s[p + 1..];
      assert VectorErase(s, p) == Ok(t);
      DescendingTail(ps);
      EraseDescendingIsDeleteAt(t, ps[1..]);
      DeleteAtPeel(s, ps);
    }
  }

  /** After the first of a descending list, the rest lie below it and still
      descend. */
  lemma DescendingTail(ps: seq<int>)
    requires |ps| > 0 && Descending(ps)
    ensures forall k :: 0 <= k < |ps[1..]| ==> ps[1..][k] < ps[0]
    ensures Descending(ps[1..])
  {
    var more := ps[1..];
    forall k | 0 <= k < |more| ensures more[k] < ps[0] {
      assert more[k] == ps[k + 1];
    }
    forall a, b | 0 <= a < b < |more| ensures more[a] > more[b] {
      assert more[a] == ps[a + 1] && more[b] == ps[b + 1];
    }
  }

  /** Deleting a highest position p with the rest below it: remove p first,
      then the rest from what is left. */
  lemma DeleteAtPeel<T>(s: seq<T>, ps: seq<int>)
    requires |ps| > 0 && 0 <= ps[0] < |s|
    requires forall k :: 0 <= k < |ps[1..]| ==> ps[1..][k] < ps[0]
    ensures DeleteAt(s, ps) == DeleteAt(s[..ps[0]] + s[ps[0] + 1..], ps[1..])
  {
    var p := ps[0];
    var more := ps[1..];
    // Both sides keep s[p+1..] whole and differ only in how they treat the prefix.
    assert s == s[..p + 1] + s[p + 1..];
    assert forall k :: 0 <= k < |ps| ==> ps[k] < |s[..p + 1]| by {
      forall k | 0 <= k < |ps| ensures ps[k] < p + 1 {
        if k > 0 {
          assert ps[k] == more[k - 1];
        }
      }
    }
    DeleteAtInPrefix(s[..p + 1], s[p + 1..], ps);
    DeleteAtInPrefix(s[..p], s[p + 1..], more);
    assert s[..p + 1][..p] == s[..p];
    assert DeleteAt(s[..p + 1], ps) == DeleteAt(s[..p], ps);
    forall q | 0 <= q < p ensures q in ps <==> q in more {
      if q in ps {
        var k :| 0 <= k < |ps| && ps[k] == q;
        assert k > 0 && more[k - 1] == q;
      }
    }
    DeleteAtDependsOnlyOnRange(s[..p], ps, more);
  }

  /** The C++ erase loop: the positions of `suppress` are erased one at a
      time, from its last entry back to its first. */
  function EraseAsWritten(idxs: seq<nat>, suppress: seq<int>): Erased<nat>
  {
    EraseInOrder(idxs, Reverse(suppress))
  }

  /** The positions after the keeper's, back to front: in range and
      descending. */
  lemma OthersReversed(idxs: seq<nat>, suppress: seq<int>)
    requires SuppressShape(|idxs|, suppress)
    ensures var rev := Reverse(suppress[1..]);
            && (forall k :: 0 <= k < |rev| ==> 0 <= rev[k] < |idxs| - 1)
            && Descending(rev)
  {
    var rev := Reverse(suppress[1..]);
    forall k | 0 <= k < |rev| ensures 0 <= rev[k] < |idxs| - 1 {
      assert rev[k] == suppress[|suppress| - 1 - k];
    }
    forall a, b | 0 <= a < b < |rev| ensures rev[a] > rev[b] {
      assert rev[a] == suppress[|suppress| - 1 - a] && rev[b] == suppress[|suppress| - 1 - b];
    }
  }

  /** The literal loop on a `suppress` of that shape goes out of range exactly
      when it holds more than the keeper: after the other k positions are gone
      the vector holds |idxs| - k elements and `last` is not one of them. With
      nothing else collected it just drops the keeper. */
  lemma EraseReverseOutcome(idxs: seq<nat>, suppress: seq<int>)
    requires SuppressShape(|idxs|, suppress)
    ensures var r := EraseAsWritten(idxs, suppress);
            && (|suppress| == 1 ==> r == Ok(idxs[..|idxs| - 1]))
            && (|suppress| > 1 ==> r.OutOfRange? && r.pos == |idxs| - 1 && r.size == |idxs| - (|suppress| - 1))
  {
    var last := |idxs| - 1;
    var rev := Reverse(suppress[1..]);
    assert Reverse(suppress) == rev + [last];
    EraseInOrderAppend(idxs, rev, [last]);
    OthersReversed(idxs, suppress);
    EraseDescendingIsDeleteAt(idxs, rev);
    var t := DeleteAt(idxs, rev);
    assert EraseInOrder(t, [last]) == (match VectorErase(t, last)
                                       case OutOfRange(p, n) => OutOfRange(p, n)
                                       case Ok(u) => EraseInOrder(u, []));
    if |suppress| == 1 {
      assert rev == [];
      DeleteAtNothing(idxs, rev);
      assert idxs[..last] + idxs[last + 1..] == idxs[..last];
    }
  }

  /** One pass of the literal loop goes out of range exactly when the keeper
      suppressed some other box. */
  lemma EraseAsWrittenOutcome(drops: DropRule, idxs: seq<nat>)
    requires |idxs| > 0
    ensures var suppress := SuppressList(drops, idxs);
            var r := EraseAsWritten(idxs, suppress);
            && (|suppress| == 1 ==> r == Ok(idxs[..|idxs| - 1]))
            && (|suppress| > 1 ==> r.OutOfRange? && r.pos == |idxs| - 1 && r.size == |idxs| - (|suppress| - 1))
  {
    EraseReverseOutcome(idxs, SuppressList(drops, idxs));
  }

  /** The evidently intended erase order: `last` first, then the other
      positions from the highest down, so no erase shifts one still to come. */
  function EraseDescending(idxs: seq<nat>, suppress: seq<int>): Erased<nat>
    requires |suppress| > 0
  {
    EraseInOrder(idxs, [suppress[0]] + Reverse(suppress[1..]))
  }

  /** On a `suppress` of the pass's shape, the corrected order removes the
      whole of it at once, exactly as `np.delete` does. */
  lemma EraseDescendingIsDeleteAtOnce(idxs: seq<nat>, suppress: seq<int>)
    requires SuppressShape(|idxs|, suppress)
    ensures EraseDescending(idxs, suppress) == Ok(DeleteAt(idxs, suppress))
  {
    var rev := Reverse(suppress[1..]);
    var order := [suppress[0]] + rev;
    OthersReversed(idxs, suppress);
    assert forall k :: 0 <= k < |order| ==> 0 <= order[k] < |idxs| by {
      forall k | 0 <= k < |order| ensures 0 <= order[k] < |idxs| {
        if k > 0 {
          assert order[k] == rev[k - 1];
        }
      }
    }
    assert Descending(order) by {
      forall a, b | 0 <= a < b < |order| ensures order[a] > order[b] {
        assert order[b] == rev[b - 1];
        if a > 0 {
          assert order[a] == rev[a - 1];
        }
      }
    }
    EraseDescendingIsDeleteAt(idxs, order);
    SameMembers(suppress);
    DeleteAtDependsOnlyOnRange(idxs, order, suppress);
  }

  /** Putting the head first and the rest back to front keeps the members. */
  lemma SameMembers(suppress: seq<int>)
    requires |suppress| > 0
    ensures forall q :: q in [suppress[0]] + Reverse(suppress[1..]) <==> q in suppress
  {
    var order := [suppress[0]] + Reverse(suppress[1..]);
    forall q ensures q in order <==> q in suppress {
      if q in order {
        var k :| 0 <= k < |order| && order[k] == q;
        if k > 0 {
          assert suppress[|suppress| - k] == q;
        }
      }
      if q in suppress {
        var k :| 0 <= k < |suppress| && suppress[k] == q;
        if k > 0 {
          assert order[|suppress| - k] == q;
        }
      }
    }
  }

  /** The corrected loop performs one pass of the Python loop. */
  lemma EraseDescendingIsOnePass(drops: DropRule, idxs: seq<nat>)
    requires |idxs| > 0
    ensures EraseDescending(idxs, SuppressList(drops, idxs)) == Ok(NextIndices(drops, idxs))
  {
    EraseDescendingIsDeleteAtOnce(idxs, SuppressList(drops, idxs));
  }

  /** A run of the C++ loop: the picks, and whether every erase named an
      element or the run reached an erase at a position outside the vector
      (the position and the vector's size then), where the behaviour is
      undefined. */
  datatype CppRun = ErasesInRange(pick: seq<nat>) | InvalidErase(pick: seq<nat>, pos: int, size: nat)

  /** Put a keeper in front of the picks of the rest of the run. */
  function PrependPick(i: nat, run: CppRun): (r: CppRun)
    ensures r.ErasesInRange? == run.ErasesInRange? && r.pick == [i] + run.pick
  {
    match run
    case ErasesInRange(pick) => ErasesInRange([i] + pick)
    case InvalidErase(pick, pos, size) => InvalidErase([i] + pick, pos, size)
  }

  /** The `while (!idxs.empty())` loop of the C++ port as written, with its
      `rect.area()` overlap and its reverse erase loop. */
  function CppGreedyAsWritten(drops: DropRule, idxs: seq<nat>): (r: CppRun)
    ensures |r.pick| <= |idxs|
    decreases |idxs|
  {
    if |idxs| == 0 then ErasesInRange([])
    else
      var i := idxs[|idxs| - 1];
      match EraseAsWritten(idxs, SuppressList(drops, idxs))
      case OutOfRange(p, n) => InvalidErase([i], p, n)
      case Ok(next) => PrependPick(i, CppGreedyAsWritten(drops, next))
  }

  /** A keeper that suppresses nothing leaves exactly the entries before it. */
  lemma {:induction false} SurvivorsWhenNothingSuppressed(drops: DropRule,
                                                          i: nat, rest: seq<nat>)
    requires forall p :: 0 <= p < |rest| ==> !drops(i, rest[p])
    ensures Survivors(drops, i, rest) == rest
  {
    if |rest| > 0 {
      var q := |rest| - 1;
      var front := rest[..q];
      assert front + [rest[q]] == rest;
      assert Survivors(drops, i, front) == front by {
        forall p | 0 <= p < |front| ensures !drops(i, front[p]) {
          assert front[p] == rest[p];
        }
        SurvivorsWhenNothingSuppressed(drops, i, front);
      }
      assert Survivors(drops, i, rest) == Survivors(drops, i, front) + [rest[q]] by {
        SurvivorsSnoc(drops, i, rest);
        assert !drops(i, rest[q]);
      }
    }
  }

  /** A keeper that suppresses some entry leaves fewer entries. */
  lemma {:induction false} SurvivorsWhenSomethingSuppressed(drops: DropRule,
                                                            i: nat, rest: seq<nat>, p: nat)
    requires p < |rest| && drops(i, rest[p])
    ensures |Survivors(drops, i, rest)| < |rest|
  {
    var q := |rest| - 1;
    var front := rest[..q];
    if p < q {
      assert |Survivors(drops, i, front)| < |front| by {
        assert front[p] == rest[p];
        SurvivorsWhenSomethingSuppressed(drops, i, front, p);
      }
      assert |Survivors(drops, i, rest)| <= |Survivors(drops, i, front)| + 1 by {
        SurvivorsSnoc(drops, i, rest);
      }
    } else {
      assert |Survivors(drops, i, rest)| == |Survivors(drops, i, front)| by {
        SurvivorsSnoc(drops, i, rest);
      }
    }
  }

  /** One pass of the literal loop erases only in range exactly when the keeper
      suppresses nothing, and then it is the Python pass. */
  lemma AsWrittenStep(drops: DropRule, idxs: seq<nat>)
    requires |idxs| > 0
    ensures var last := |idxs| - 1;
            var e := EraseAsWritten(idxs, SuppressList(drops, idxs));
            var next := NextIndices(drops, idxs);
            && (e.Ok? <==> |next| == last)
            && (e.Ok? ==> e.value == next)
  {
    EraseAsWrittenOutcome(drops, idxs);
    NextIndicesAreSurvivors(drops, idxs);
    if |SuppressList(drops, idxs)| == 1 {
      QuietPass(drops, idxs);
    } else {
      BusyPass(drops, idxs);
    }
  }

  /** A pass whose `suppress` holds only the keeper keeps every other entry. */
  lemma QuietPass(drops: DropRule, idxs: seq<nat>)
    requires |idxs| > 0 && |SuppressList(drops, idxs)| == 1
    ensures Survivors(drops, idxs[|idxs| - 1], idxs[..|idxs| - 1]) == idxs[..|idxs| - 1]
  {
    var last := |idxs| - 1;
    var ps := OverlapPositions(drops, idxs[last], idxs[..last]);
    assert SuppressList(drops, idxs) == [last] + ps;
    SurvivorsWhenNothingSuppressed(drops, idxs[last], idxs[..last]);
  }

  /** A pass whose `suppress` holds more than the keeper drops some other
      entry. */
  lemma BusyPass(drops: DropRule, idxs: seq<nat>)
    requires |idxs| > 0 && |SuppressList(drops, idxs)| > 1
    ensures |Survivors(drops, idxs[|idxs| - 1], idxs[..|idxs| - 1])| < |idxs| - 1
  {
    var last := |idxs| - 1;
    var ps := OverlapPositions(drops, idxs[last], idxs[..last]);
    assert SuppressList(drops, idxs) == [last] + ps;
    SurvivorsWhenSomethingSuppressed(drops, idxs[last], idxs[..last], ps[0]);
  }

  /** The literal C++ loop performs no out-of-range erase exactly when no
      keeper ever suppresses another box, that is when the Python loop (with
      the same area normaliser) keeps every entry; it then picks what Python
      picks. */
  lemma {:induction false} CppAsWrittenErasesInRangeOnlyWithoutSuppression(drops: DropRule, idxs: seq<nat>)
    ensures var run := CppGreedyAsWritten(drops, idxs);
            var pick := Greedy(drops, idxs);
            && (run.ErasesInRange? <==> |pick| == |idxs|)
            && (run.ErasesInRange? ==> run.pick == pick)
    decreases |idxs|
  {
    if |idxs| > 0 {
      var last := |idxs| - 1;
      var i := idxs[last];
      var next := NextIndices(drops, idxs);
      var e := EraseAsWritten(idxs, SuppressList(drops, idxs));
      AsWrittenStep(drops, idxs);
      assert Greedy(drops, idxs) == [i] + Greedy(drops, next);
      if e.Ok? {
        assert CppGreedyAsWritten(drops, idxs) == PrependPick(i, CppGreedyAsWritten(drops, next));
        CppAsWrittenErasesInRangeOnlyWithoutSuppression(drops, next);
      } else {
        assert CppGreedyAsWritten(drops, idxs).InvalidErase?;
        assert |Greedy(drops, next)| <= |next| < last;
      }
    }
  }

  /** The C++ loop with the erase order corrected. */
  function CppGreedyCorrected(drops: DropRule, idxs: seq<nat>): (pick: seq<nat>)
    ensures pick == Greedy(drops, idxs)
    decreases |idxs|
  {
    if |idxs| == 0 then []
    else
      var e := EraseDescending(idxs, SuppressList(drops, idxs));
      EraseDescendingIsOnePass(drops, idxs);
      [idxs[|idxs| - 1]] + CppGreedyCorrected(drops, e.value)
  }

  /** `nonMaxSuppression` as written: the `rect.area()` overlap, indices
      sorted by bottom edge, and the reverse erase loop. */
  function CppNonMaxSuppressionAsWritten(boxes: seq<Box>, thresh: real): (r: CppRun)
    ensures |r.pick| <= |boxes|
  {
    if |boxes| == 0 then ErasesInRange([])
    else CppGreedyAsWritten(OverlapRule(boxes, RectArea, thresh), ArgSortByBottom(boxes))
  }

  /** The port as written performs no out-of-range erase exactly when no box
      is ever suppressed, and then its picks are those of the Python function
      with the port's area normaliser. */
  lemma CppNonMaxSuppressionErasesInRange(boxes: seq<Box>, thresh: real)
    requires AllValid(boxes)
    ensures var run := CppNonMaxSuppressionAsWritten(boxes, thresh);
            var pick := NonMaxSuppressionPicks(boxes, RectArea, thresh);
            && (run.ErasesInRange? <==> |pick| == |boxes|)
            && (run.ErasesInRange? ==> run.pick == pick)
  {
    if |boxes| > 0 {
      InRangeWithSomeBoxes(boxes, thresh);
    }
  }

  /** The case of `CppNonMaxSuppressionErasesInRange` where the sort has run. */
  lemma InRangeWithSomeBoxes(boxes: seq<Box>, thresh: real)
    requires AllValid(boxes) && |boxes| > 0
    ensures var run := CppNonMaxSuppressionAsWritten(boxes, thresh);
            var pick := NonMaxSuppressionPicks(boxes, RectArea, thresh);
            && (run.ErasesInRange? <==> |pick| == |boxes|)
            && (run.ErasesInRange? ==> run.pick == pick)
  {
    var run := CppNonMaxSuppressionAsWritten(boxes, thresh);
    var pick := NonMaxSuppressionPicks(boxes, RectArea, thresh);
    var drops := OverlapRule(boxes, RectArea, thresh);
    var order := ArgSortByBottom(boxes);
    assert run == CppGreedyAsWritten(drops, order);
    assert pick == Greedy(drops, order);
    InRangeOnSameOrder(drops, order, run, pick, |boxes|);
  }

  /** `CppAsWrittenErasesInRangeOnlyWithoutSuppression` for a run and a pick list
      already known to come from the same drop rule and order. */
  lemma InRangeOnSameOrder(drops: DropRule, order: seq<nat>, run: CppRun, pick: seq<nat>, n: nat)
    requires run == CppGreedyAsWritten(drops, order) && pick == Greedy(drops, order) && |order| == n
    ensures run.ErasesInRange? <==> |pick| == n
    ensures run.ErasesInRange? ==> run.pick == pick
  {
    CppAsWrittenErasesInRangeOnlyWithoutSuppression(drops, order);
  }

  /** `nonMaxSuppression` with the erase order corrected. */
  function CppNonMaxSuppressionCorrected(boxes: seq<Box>, thresh: real): (pick: seq<nat>)
    requires AllValid(boxes)
    ensures pick == NonMaxSuppressionPicks(boxes, RectArea, thresh)
  {
    if |boxes| == 0 then []
    else CppGreedyCorrected(OverlapRule(boxes, RectArea, thresh), ArgSortByBottom(boxes))
  }

  /** Two boxes sharing their top-left corner, the upper inside the lower. */
  function NestedPair(): seq<Box>
  {
    [Box(0, 0, 10, 10), Box(0, 0, 10, 20)]
  }

  /** In bottom-edge order the upper box comes first. */
  lemma NestedPairOrder()
    ensures ArgSortByBottom(NestedPair()) == [0, 1]
  {
    var boxes := NestedPair();
    assert SortPrefix(boxes, 1) == [0];
    assert SortPrefix(boxes, 2) == InsertByBottom(boxes, 1, [0]);
  }

  /** Under either area normaliser the lower box drops the upper one, which
      lies inside it. */
  lemma NestedPairDrops(conv: AreaConvention)
    ensures Suppresses(NestedPair(), conv, 0.2, 1, 0)
  {
    var boxes := NestedPair();
    assert Contains(boxes[1], boxes[0]);
    ContainedOverlapAtLeastOne(conv, boxes[1], boxes[0]);
  }

  /** The one pass over the nested pair collects both positions. */
  lemma NestedPairPass(conv: AreaConvention)
    ensures |SuppressList(OverlapRule(NestedPair(), conv, 0.2), [0, 1])| == 2
  {
    var drops := OverlapRule(NestedPair(), conv, 0.2);
    NestedPairDrops(conv);
    KeeperDropsSomething(drops, [0, 1], 0);
    ShapeFits(2, SuppressList(drops, [0, 1]));
  }

  /** `suppress` never holds more positions than there are indices. */
  lemma ShapeFits(n: nat, suppress: seq<int>)
    requires SuppressShape(n, suppress)
    ensures |suppress| <= n
  {
    var others := suppress[1..];
    forall a, b | 0 <= a < b < |others| ensures others[a] < others[b] {
      assert others[a] == suppress[a + 1] && others[b] == suppress[b + 1];
    }
    forall k | 0 <= k < |others| ensures 0 <= others[k] < n - 1 {
      assert others[k] == suppress[k + 1];
    }
    AscendingBelowFits(others, n - 1);
  }

  /** Strictly ascending positions below n number at most n. */
  lemma {:induction false} AscendingBelowFits(s: seq<int>, n: nat)
    requires forall k :: 0 <= k < |s| ==> 0 <= s[k] < n
    requires forall a, b :: 0 <= a < b < |s| ==> s[a] < s[b]
    ensures |s| <= n
  {
    if |s| > 0 {
      var top := s[|s| - 1];
      var front := s[..|s| - 1];
      forall k | 0 <= k < |front| ensures 0 <= front[k] < top {
        assert front[k] == s[k];
      }
      forall a, b | 0 <= a < b < |front| ensures front[a] < front[b] {
        assert front[a] == s[a] && front[b] == s[b];
      }
      AscendingBelowFits(front, top);
    }
  }

  /** A keeper that drops an entry puts more than its own position in
      `suppress`. */
  lemma KeeperDropsSomething(drops: DropRule, idxs: seq<nat>, p: nat)
    requires p < |idxs| - 1 && drops(idxs[|idxs| - 1], idxs[p])
    ensures |SuppressList(drops, idxs)| > 1
  {
    var last := |idxs| - 1;
    assert idxs[..last][p] == idxs[p];
  }

  /** When the first keeper drops any other entry, the literal loop reaches
      an out-of-range erase in its first pass: it has picked that keeper and then erases position
      `last` of a vector that has already lost the dropped entries. */
  lemma CppAsWrittenInvalidAtFirstDrop(drops: DropRule, idxs: seq<nat>)
    requires |idxs| > 0 && |SuppressList(drops, idxs)| > 1
    ensures var run := CppGreedyAsWritten(drops, idxs);
            && run.InvalidErase? && run.pick == [idxs[|idxs| - 1]] && run.pos == |idxs| - 1
            && run.size == |idxs| - (|SuppressList(drops, idxs)| - 1)
  {
    EraseAsWrittenOutcome(drops, idxs);
  }

  /** On the nested pair the literal loop keeps the lower box, suppresses the
      upper one, and then erases position 1 of a one-element vector. */
  lemma CppInvalidEraseOnNestedPair()
    ensures CppNonMaxSuppressionAsWritten(NestedPair(), 0.2) == InvalidErase([1], 1, 1)
  {
    var drops := OverlapRule(NestedPair(), RectArea, 0.2);
    NestedPairOrder();
    assert CppNonMaxSuppressionAsWritten(NestedPair(), 0.2) == CppGreedyAsWritten(drops, [0, 1]);
    NestedPairPass(RectArea);
    CppAsWrittenInvalidAtFirstDrop(drops, [0, 1]);
  }

  /** The corrected loop on the same input picks only the lower box, and so
      does the Python version with its own +1-inclusive area. */
  lemma CorrectedKeepsNestedPairLower()
    ensures CppNonMaxSuppressionCorrected(NestedPair(), 0.2) == [1]
    ensures NonMaxSuppressionPicks(NestedPair(), PixelInclusive, 0.2) == [1]
  {
    NestedPairOrder();
    NestedPairGreedy(RectArea);
    NestedPairGreedy(PixelInclusive);
  }

  /** From the sorted order [0, 1], under either area normaliser, the loop
      keeps box 1 and nothing else. */
  lemma NestedPairGreedy(conv: AreaConvention)
    ensures Greedy(OverlapRule(NestedPair(), conv, 0.2), [0, 1]) == [1]
  {
    var drops := OverlapRule(NestedPair(), conv, 0.2);
    NestedPairPass(conv);
    BusyPass(drops, [0, 1]);
    NextIndicesAreSurvivors(drops, [0, 1]);
    var next := NextIndices(drops, [0, 1]);
    assert |next| == 0;
    assert Greedy(drops, [0, 1]) == [1] + Greedy(drops, next);
  }
}

=== FILE: crop.dfy ===
/**
 * The percentage crop applied before resizing: `crop_image` in Python and
 * `cropImage` in C++. Both turn four percentages into pixel margins with a
 * truncating conversion and cut rows [top, height - bottom) and columns
 * [left, width - right). They differ on out-of-range margins: Python's slice
 * clamps (and counts negative bounds from the end), OpenCV's `Range`
 * constructor of a sub-matrix rejects them. They also differ in the shape of
 * an empty crop: a numpy array keeps the other extent (0 rows of `width`
 * pixels), while OpenCV sets both extents of a matrix without pixels to 0.
 */
module Crop {
  import opened IntMath

  /** An image as a grid of pixels: `rows`, each `width` pixels long. */
  datatype Grid<T> = Grid(width: nat, rows: seq<seq<T>>)
  {
    predicate Valid()
    {
      forall i :: 0 <= i < |rows| ==> |rows[i]| == width
    }

    function Height(): nat
    {
      |rows|
    }
  }

  /** The four margins in pixels. */
  datatype Margins = Margins(left: int, right: int, top: int, bottom: int)

  /** `int(width * left_pct)` and its three siblings. */
  function CropMargins(width: nat, height: nat, leftPct: Fraction, rightPct: Fraction,
                       topPct: Fraction, bottomPct: Fraction): Margins
  {
    Margins(ScaleTrunc(width, leftPct), ScaleTrunc(width, rightPct),
            ScaleTrunc(height, topPct), ScaleTrunc(height, bottomPct))
  }

  /** Rows [rowLo, rowHi) and columns [colLo, colHi) of a source image. */
  datatype Window = Window(rowLo: nat, rowHi: nat, colLo: nat, colHi: nat)
  {
    predicate Inside(height: nat, width: nat)
    {
      rowLo <= rowHi <= height && colLo <= colHi <= width
    }
  }

  /** Python's normalisation of one slice bound for a sequence of length n:
      a negative bound counts from the end, then the bound is clamped to [0, n]. */
  function SliceBound(i: int, n: nat): (b: nat)
    ensures b <= n
    ensures 0 <= i <= n ==> b == i
    ensures i < 0 && n + i >= 0 ==> b == n + i
    ensures i > n ==> b == n
    ensures i + n < 0 ==> b == 0
  {
    if i < 0 then (if i + n < 0 then 0 else i + n)
    else if i > n then n
    else i
  }

  /** Python's `s[lo:hi]`: the elements from the normalised start up to the
      normalised end, nothing when the end is not after the start. */
  function PySlice<T>(s: seq<T>, lo: int, hi: int): (r: seq<T>)
    ensures |r| <= |s|
    ensures forall k :: 0 <= k < |r| ==> SliceBound(lo, |s|) + k < |s| && r[k] == s[SliceBound(lo, |s|) + k]
    ensures 0 <= lo <= hi <= |s| ==> r == s[lo..hi]
  {
    var a := SliceBound(lo, |s|);
    var b := SliceBound(hi, |s|);
    if a < b then s[a..b] else []
  }

  /** The window a Python slice pair selects: never outside the image. */
  function PyWindow(height: nat, width: nat, m: Margins): (w: Window)
    ensures w.Inside(height, width)
  {
    var r0 := SliceBound(m.top, height);
    var r1 := SliceBound(height - m.bottom, height);
    var c0 := SliceBound(m.left, width);
    var c1 := SliceBound(width - m.right, width);
    Window(r0, if r0 < r1 then r1 else r0, c0, if c0 < c1 then c1 else c0)
  }

  /** The sub-image of a window. */
  function Cut<T>(img: Grid<T>, w: Window): (r: Grid<T>)
    requires img.Valid() && w.Inside(img.Height(), img.width)
    ensures r.Valid()
    ensures r.Height() == w.rowHi - w.rowLo && r.width == w.colHi - w.colLo
    ensures forall i, j :: 0 <= i < r.Height() && 0 <= j < r.width ==>
              r.rows[i][j] == img.rows[w.rowLo + i][w.colLo + j]
  {
    Grid(w.colHi - w.colLo,
         seq(w.rowHi - w.rowLo, i requires 0 <= i < w.rowHi - w.rowLo => img.rows[w.rowLo + i][w.colLo..w.colHi]))
  }

  /** `image[top:height-bottom, left:width-right]` for margins in pixels. */
  function PySliceCrop<T>(img: Grid<T>, m: Margins): (r: Grid<T>)
    requires img.Valid()
    ensures r.Valid()
    ensures r.Height() <= img.Height() && r.width <= img.width
  {
    var rows := PySlice(img.rows, m.top, img.Height() - m.bottom);
    var c0 := SliceBound(m.left, img.width);
    var c1 := SliceBound(img.width - m.right, img.width);
    var width := if c0 < c1 then c1 - c0 else 0;
    assert forall i :: 0 <= i < |rows| ==> |rows[i]| == img.width by {
      forall i | 0 <= i < |rows| ensures |rows[i]| == img.width {
        assert rows[i] == img.rows[SliceBound(m.top, img.Height()) + i];
      }
    }
    Grid(width, seq(|rows|, i requires 0 <= i < |rows| => PySlice(rows[i], m.left, img.width - m.right)))
  }

  /** `crop_image`: the slice crop by the truncated percentage margins. */
  function PyCrop<T>(img: Grid<T>, leftPct: Fraction, rightPct: Fraction,
                     topPct: Fraction, bottomPct: Fraction): (r: Grid<T>)
    requires img.Valid()
    ensures r.Valid()
    ensures r.Height() <= img.Height() && r.width <= img.width
  {
    PySliceCrop(img, CropMargins(img.width, img.Height(), leftPct, rightPct, topPct, bottomPct))
  }

  /** Outcome of the C++ crop: the sub-matrix, or the exception `Mat`'s
      range constructor raises for a range outside the image. */
  datatype CropResult<T> = Cropped(grid: Grid<T>) | RangeError

  /** An image as an OpenCV matrix holds it: one without pixels (no rows, or
      rows of no pixels) is the 0 x 0 matrix. */
  function Collapsed<T>(g: Grid<T>): Grid<T>
  {
    if g.Height() == 0 || g.width == 0 then Grid(0, []) else g
  }

  /** `image(Range(top, height - bottom), Range(left, width - right))`, where
      each range must satisfy 0 <= start <= end <= size; a sub-matrix with an
      empty range is released to 0 x 0. */
  function RangeCrop<T>(img: Grid<T>, m: Margins): (r: CropResult<T>)
    requires img.Valid()
    ensures r.Cropped? ==> r.grid.Valid()
    ensures r.Cropped? ==> (r.grid.Height() == 0 <==> r.grid.width == 0)
    ensures r.Cropped? ==> r.grid.Height() <= img.Height() && r.grid.width <= img.width
  {
    var h := img.Height();
    var w := img.width;
    if 0 <= m.top <= h - m.bottom <= h && 0 <= m.left <= w - m.right <= w
    then Cropped(Collapsed(Cut(img, Window(m.top, h - m.bottom, m.left, w - m.right))))
    else RangeError
  }

  /** `cropImage`: the range crop by the truncated percentage margins. */
  function CppCrop<T>(img: Grid<T>, leftPct: Fraction, rightPct: Fraction,
                      topPct: Fraction, bottomPct: Fraction): (r: CropResult<T>)
    requires img.Valid()
    ensures r.Cropped? ==> r.grid.Valid()
  {
    RangeCrop(img, CropMargins(img.width, img.Height(), leftPct, rightPct, topPct, bottomPct))
  }

  /** The slice crop is exactly the sub-image of the window its two slices
      select, pixel for pixel. */
  lemma SliceCropIsWindowCut<T>(img: Grid<T>, m: Margins)
    requires img.Valid()
    ensures PySliceCrop(img, m) == Cut(img, PyWindow(img.Height(), img.width, m))
  {
    var w := PyWindow(img.Height(), img.width, m);
    var p := PySliceCrop(img, m);
    var c := Cut(img, w);
    assert p.width == c.width;
    assert |p.rows| == |c.rows|;
    forall i | 0 <= i < |p.rows| ensures p.rows[i] == c.rows[i] {
      assert |p.rows[i]| == |c.rows[i]|;
      forall j | 0 <= j < |p.rows[i]| ensures p.rows[i][j] == c.rows[i][j] {
      }
    }
  }

  /** The Python crop is exactly the sub-image of the window its two slices
      select, pixel for pixel. */
  lemma PyCropIsWindowCut<T>(img: Grid<T>, leftPct: Fraction, rightPct: Fraction,
                             topPct: Fraction, bottomPct: Fraction)
    requires img.Valid()
    ensures PyCrop(img, leftPct, rightPct, topPct, bottomPct)
            == Cut(img, PyWindow(img.Height(), img.width,
                                 CropMargins(img.width, img.Height(), leftPct, rightPct, topPct, bottomPct)))
  {
    SliceCropIsWindowCut(img, CropMargins(img.width, img.Height(), leftPct, rightPct, topPct, bottomPct));
  }

  /** Where the range crop succeeds, it returns the slice crop's image when
      that has pixels, and the 0 x 0 matrix when it has none. */
  lemma RangeCropAgreesWithSlice<T>(img: Grid<T>, m: Margins)
    requires img.Valid()
    requires RangeCrop(img, m).Cropped?
    ensures var p := PySliceCrop(img, m);
            && (p.Height() > 0 && p.width > 0 ==> RangeCrop(img, m).grid == p)
            && (p.Height() == 0 || p.width == 0 ==> RangeCrop(img, m).grid == Grid(0, []))
  {
    var win := Window(m.top, img.Height() - m.bottom, m.left, img.width - m.right);
    assert PySliceCrop(img, m) == Cut(img, win) by {
      SliceCropIsWindowCut(img, m);
      assert PyWindow(img.Height(), img.width, m) == win;
    }
    assert RangeCrop(img, m).grid == Collapsed(Cut(img, win));
  }

  /** Where the C++ crop succeeds, the Python crop returns the same image,
      up to the shape of an image without pixels. */
  lemma CppCropAgreesWithPython<T>(img: Grid<T>, leftPct: Fraction, rightPct: Fraction,
                                   topPct: Fraction, bottomPct: Fraction)
    requires img.Valid()
    requires CppCrop(img, leftPct, rightPct, topPct, bottomPct).Cropped?
    ensures var p := PyCrop(img, leftPct, rightPct, topPct, bottomPct);
            && (p.Height() > 0 && p.width > 0 ==> CppCrop(img, leftPct, rightPct, topPct, bottomPct).grid == p)
            && (p.Height() == 0 || p.width == 0 ==> CppCrop(img, leftPct, rightPct, topPct, bottomPct).grid == Grid(0, []))
  {
    RangeCropAgreesWithSlice(img, CropMargins(img.width, img.Height(), leftPct, rightPct, topPct, bottomPct));
  }

  /** With non-negative percentages summing to at most one on each axis, the
      C++ crop succeeds; the Python crop keeps `height - top - bottom` rows and
      `width - left - right` columns, starting at (top, left), and the C++
      crop is that image as a matrix. */
  lemma CropWithinBounds<T>(img: Grid<T>, leftPct: Fraction, rightPct: Fraction,
                            topPct: Fraction, bottomPct: Fraction)
    requires img.Valid()
    requires leftPct.num >= 0 && rightPct.num >= 0 && topPct.num >= 0 && bottomPct.num >= 0
    requires leftPct.num * rightPct.den + rightPct.num * leftPct.den <= leftPct.den * rightPct.den
    requires topPct.num * bottomPct.den + bottomPct.num * topPct.den <= topPct.den * bottomPct.den
    ensures var m := CropMargins(img.width, img.Height(), leftPct, rightPct, topPct, bottomPct);
            var r := PyCrop(img, leftPct, rightPct, topPct, bottomPct);
            && CppCrop(img, leftPct, rightPct, topPct, bottomPct) == Cropped(Collapsed(r))
            && r.Height() == img.Height() - m.top - m.bottom
            && r.width == img.width - m.left - m.right
            && forall i, j :: 0 <= i < r.Height() && 0 <= j < r.width ==>
                 r.rows[i][j] == img.rows[m.top + i][m.left + j]
  {
    ScaleTruncSumFits(img.width, leftPct, rightPct);
    ScaleTruncSumFits(img.Height(), topPct, bottomPct);
    CppCropAgreesWithPython(img, leftPct, rightPct, topPct, bottomPct);
  }

  /** The crop of the measurement stage, 10% off the left and right and 5%
      off the top and bottom, always succeeds in both ports, and of an image
      with pixels both ports keep the same non-empty middle. */
  lemma StageCropKeepsMiddle<T>(img: Grid<T>)
    requires img.Valid()
    ensures var r := PyCrop(img, Fraction(10, 100), Fraction(10, 100), Fraction(5, 100), Fraction(5, 100));
            && CppCrop(img, Fraction(10, 100), Fraction(10, 100), Fraction(5, 100), Fraction(5, 100)) == Cropped(Collapsed(r))
            && r.width == img.width - 2 * (img.width * 10 / 100)
            && r.Height() == img.Height() - 2 * (img.Height() * 5 / 100)
            && (img.Height() > 0 && img.width > 0 ==> r.Height() > 0 && r.width > 0 && Collapsed(r) == r)
  {
    CropWithinBounds(img, Fraction(10, 100), Fraction(10, 100), Fraction(5, 100), Fraction(5, 100));
  }

  /** A start margin beyond the image makes the C++ crop throw, while the
      Python slice clamps it to the end and yields no rows (or no columns). */
  lemma OversizedMarginDiverges<T>(img: Grid<T>, m: Margins)
    requires img.Valid()
    ensures m.top > img.Height() ==> RangeCrop(img, m) == RangeError && PySliceCrop(img, m).Height() == 0
    ensures m.left > img.width ==> RangeCrop(img, m) == RangeError && PySliceCrop(img, m).width == 0
  {
  }

  /** An end margin beyond the image makes the C++ crop throw. The Python
      stop `height - bottom` is then negative and counts from the end: below
      twice the height it keeps the first `2 * height - bottom` rows (less
      the top margin), from twice the height on it keeps none. Columns
      behave alike. */
  lemma OversizedEndMarginWraps<T>(img: Grid<T>, m: Margins)
    requires img.Valid()
    ensures m.bottom > img.Height() ==> RangeCrop(img, m) == RangeError
    ensures img.Height() < m.bottom < 2 * img.Height() && 0 <= m.top <= 2 * img.Height() - m.bottom ==>
              PySliceCrop(img, m).Height() == 2 * img.Height() - m.bottom - m.top
    ensures m.bottom >= 2 * img.Height() ==> PySliceCrop(img, m).Height() == 0
    ensures m.right > img.width ==> RangeCrop(img, m) == RangeError
    ensures img.width < m.right < 2 * img.width && 0 <= m.left <= 2 * img.width - m.right ==>
              PySliceCrop(img, m).width == 2 * img.width - m.right - m.left
    ensures m.right >= 2 * img.width ==> PySliceCrop(img, m).width == 0
  {
  }
}

=== FILE: geometry.dfy ===
/**
 * Axis-aligned boxes and the overlap measure of non-maximum suppression.
 *
 * A box is (x1, y1, x2, y2) with (x2, y2) one past the last pixel, which is
 * both Python's `[x, y, x + w, y + h]` and the C++ `Rect(x, y, w, h)` with
 * `br() == (x + w, y + h)`.
 */
module Geometry {

  datatype Box = Box(x1: int, y1: int, x2: int, y2: int)
  {
    /** What a bounding rectangle always is: at least one pixel wide and high. */
    predicate Valid()
    {
      x1 < x2 && y1 < y2
    }

    function Width(): int
    {
      x2 - x1
    }

    function Height(): int
    {
      y2 - y1
    }
  }

  predicate AllValid(boxes: seq<Box>)
  {
    forall k :: 0 <= k < |boxes| ==> boxes[k].Valid()
  }

  /** The two normalisers of the overlap fraction: Python counts pixels
      inclusively, `(x2 - x1 + 1) * (y2 - y1 + 1)`; the C++ port divides by
      `Rect::area()`, `width * height`. */
  datatype AreaConvention = PixelInclusive | RectArea

  function Area(conv: AreaConvention, b: Box): (r: int)
    ensures b.Valid() ==> r > 0
  {
    match conv
    case PixelInclusive =>
      assert b.Valid() ==> (b.x2 - b.x1 + 1) * (b.y2 - b.y1 + 1) > 0 by {
        if b.Valid() { PositiveProduct(b.x2 - b.x1 + 1, b.y2 - b.y1 + 1); }
      }
      (b.x2 - b.x1 + 1) * (b.y2 - b.y1 + 1)
    case RectArea =>
      assert b.Valid() ==> b.Width() * b.Height() > 0 by {
        if b.Valid() { PositiveProduct(b.Width(), b.Height()); }
      }
      b.Width() * b.Height()
  }

  function Max(a: int, b: int): int
  {
    if a >= b then a else b
  }

  function Min(a: int, b: int): int
  {
    if a <= b then a else b
  }

  /** Extent shared by [lo1, hi1] and [lo2, hi2], counted inclusively as both
      ports do: `max(0, min(hi) - max(lo) + 1)`. */
  function SharedSpan(lo1: int, hi1: int, lo2: int, hi2: int): (r: nat)
    ensures lo2 <= hi2 ==> r <= hi2 - lo2 + 1
    ensures lo1 <= lo2 <= hi2 <= hi1 ==> r == hi2 - lo2 + 1
  {
    Max(0, Min(hi1, hi2) - Max(lo1, lo2) + 1)
  }

  /** The pixel-inclusive intersection area `w * h` of both ports. */
  function Intersection(a: Box, b: Box): (r: nat)
  {
    SharedSpan(a.x1, a.x2, b.x1, b.x2) * SharedSpan(a.y1, a.y2, b.y1, b.y2)
  }

  /** The asymmetric overlap fraction: the intersection with the keeper divided
      by the candidate's own area, never by the keeper's area or the union. */
  function Overlap(conv: AreaConvention, keeper: Box, cand: Box): real
    requires cand.Valid()
  {
    (Intersection(keeper, cand) as real) / (Area(conv, cand) as real)
  }

  /** `outer` covers every pixel of `inner`. */
  predicate Contains(outer: Box, inner: Box)
  {
    outer.x1 <= inner.x1 && inner.x2 <= outer.x2 && outer.y1 <= inner.y1 && inner.y2 <= outer.y2
  }

  /** Under Python's convention the overlap is a fraction in [0, 1]. */
  lemma InclusiveOverlapInUnitInterval(keeper: Box, cand: Box)
    requires cand.Valid()
    ensures 0.0 <= Overlap(PixelInclusive, keeper, cand) <= 1.0
  {
    var w := SharedSpan(keeper.x1, keeper.x2, cand.x1, cand.x2);
    var h := SharedSpan(keeper.y1, keeper.y2, cand.y1, cand.y2);
    NatProductMonotone(w, cand.x2 - cand.x1 + 1, h, cand.y2 - cand.y1 + 1);
    FractionAtMostOne(Intersection(keeper, cand), Area(PixelInclusive, cand));
  }

  /** Under Python's convention a box lying inside the keeper overlaps it by
      exactly 1.0. */
  lemma ContainedOverlapIsOne(keeper: Box, cand: Box)
    requires cand.Valid() && Contains(keeper, cand)
    ensures Overlap(PixelInclusive, keeper, cand) == 1.0
  {
    var n := Intersection(keeper, cand);
    assert SharedSpan(keeper.x1, keeper.x2, cand.x1, cand.x2) == cand.x2 - cand.x1 + 1;
    assert SharedSpan(keeper.y1, keeper.y2, cand.y1, cand.y2) == cand.y2 - cand.y1 + 1;
    assert n == Area(PixelInclusive, cand);
    FractionOfItself(n);
  }

  /** Under the C++ convention a box lying inside the keeper overlaps it by
      more than 1.0: the numerator counts one more row and column than
      `Rect::area()`. */
  lemma ContainedRectOverlapExceedsOne(keeper: Box, cand: Box)
    requires cand.Valid() && Contains(keeper, cand)
    ensures Overlap(RectArea, keeper, cand) > 1.0
  {
    var w := cand.Width();
    var h := cand.Height();
    assert SharedSpan(keeper.x1, keeper.x2, cand.x1, cand.x2) == w + 1;
    assert SharedSpan(keeper.y1, keeper.y2, cand.y1, cand.y2) == h + 1;
    assert Intersection(keeper, cand) == (w + 1) * (h + 1);
    assert (w + 1) * (h + 1) == w * h + w + h + 1;
    FractionAboveOne(Intersection(keeper, cand), Area(RectArea, cand));
  }

  /** For one keeper and one candidate, the C++ overlap is never smaller
      than Python's: whenever the Python comparison drops the candidate, the
      C++ one does too. This does not carry over to a whole run, since a box
      that only C++ drops is then no longer a keeper. */
  lemma RectOverlapAtLeastInclusive(keeper: Box, cand: Box)
    requires cand.Valid()
    ensures Overlap(RectArea, keeper, cand) >= Overlap(PixelInclusive, keeper, cand)
  {
    var w := cand.Width();
    var h := cand.Height();
    assert Area(PixelInclusive, cand) == w * h + w + h + 1;
    SmallerDenominator(Intersection(keeper, cand), Area(RectArea, cand), Area(PixelInclusive, cand));
  }

  lemma PositiveProduct(a: int, b: int)
    requires a > 0 && b > 0
    ensures a * b > 0
  {
  }

  lemma NatProductMonotone(a: nat, a': nat, b: nat, b': nat)
    requires a <= a' && b <= b'
    ensures a * b <= a' * b'
  {
    assert a * b <= a' * b;
    assert a' * b <= a' * b';
  }

  lemma FractionAtMostOne(n: nat, d: int)
    requires 0 < d && n <= d
    ensures 0.0 <= (n as real) / (d as real) <= 1.0
  {
  }

  lemma FractionOfItself(n: int)
    requires n > 0
    ensures (n as real) / (n as real) == 1.0
  {
  }

  lemma FractionAboveOne(n: int, d: int)
    requires 0 < d < n
    ensures (n as real) / (d as real) > 1.0
  {
  }

  lemma SmallerDenominator(n: nat, d: int, d': int)
    requires 0 < d <= d'
    ensures (n as real) / (d as real) >= (n as real) / (d' as real)
  {
    var q := (n as real) / (d as real);
    var q' := (n as real) / (d' as real);
    assert q * (d as real) == n as real;
    assert q' * (d' as real) == n as real;
    assert q' >= 0.0;
    assert q' * (d as real) <= q' * (d' as real);
  }
}

=== FILE: index_sort.dfy ===
/**
 * Index sequences over a list of boxes, and the ascending sort by bottom
 * edge that opens non-maximum suppression (`np.argsort(y2)`, and `std::sort`
 * of `iota` indices on `br().y`). Neither library sort fixes the order of
 * equal bottom edges; the model sorts stably, and the suppression lemmas hold
 * for any order sorted by bottom edge.
 */
module IndexSort {
  import opened Geometry

  predicate Distinct<T(==)>(s: seq<T>)
  {
    forall a, b :: 0 <= a < b < |s| ==> s[a] != s[b]
  }

  /** Every entry is a position of a list of length n. */
  predicate IndicesIn(s: seq<nat>, n: nat)
  {
    forall k :: 0 <= k < |s| ==> s[k] < n
  }

  /** The boxes named by s have non-decreasing bottom edges. */
  predicate SortedByBottom(boxes: seq<Box>, s: seq<nat>)
  {
    && IndicesIn(s, |boxes|)
    && forall a, b :: 0 <= a < b < |s| ==> boxes[s[a]].y2 <= boxes[s[b]].y2
  }

  /** Insert index k after every entry whose box does not sit lower. */
  function InsertByBottom(boxes: seq<Box>, k: nat, s: seq<nat>): (r: seq<nat>)
    requires k < |boxes| && IndicesIn(s, |boxes|)
    ensures |r| == |s| + 1 && IndicesIn(r, |boxes|)
    ensures forall j :: j in r <==> j == k || j in s
  {
    if |s| == 0 then [k]
    else if boxes[k].y2 < boxes[s[0]].y2 then [k] + s
    else
      assert s == [s[0]] + s[1..];
      [s[0]] + InsertByBottom(boxes, k, s[1..])
  }

  lemma {:induction false} InsertKeepsSorted(boxes: seq<Box>, k: nat, s: seq<nat>)
    requires k < |boxes| && SortedByBottom(boxes, s)
    ensures SortedByBottom(boxes, InsertByBottom(boxes, k, s))
  {
    if |s| > 0 && boxes[k].y2 >= boxes[s[0]].y2 {
      var t := InsertByBottom(boxes, k, s[1..]);
      SortedTail(boxes, s);
      InsertKeepsSorted(boxes, k, s[1..]);
      PrependBelow(boxes, s[0], t);
    }
  }

  /** Dropping the first entry keeps a list sorted, and the first entry's box
      sits no lower than any later one. */
  lemma SortedTail(boxes: seq<Box>, s: seq<nat>)
    requires |s| > 0 && SortedByBottom(boxes, s)
    ensures SortedByBottom(boxes, s[1..])
    ensures forall j :: j in s[1..] ==> boxes[s[0]].y2 <= boxes[j].y2
  {
    var t := s[1..];
    forall a, b | 0 <= a < b < |t| ensures boxes[t[a]].y2 <= boxes[t[b]].y2 {
      assert t[a] == s[a + 1] && t[b] == s[b + 1];
    }
    forall j | j in t ensures boxes[s[0]].y2 <= boxes[j].y2 {
      var p :| 0 <= p < |t| && t[p] == j;
      assert s[p + 1] == j;
    }
  }

  /** An index whose box sits no lower than any box of a sorted list can go
      in front of it. */
  lemma PrependBelow(boxes: seq<Box>, x: nat, t: seq<nat>)
    requires x < |boxes| && SortedByBottom(boxes, t)
    requires forall j :: j in t ==> boxes[x].y2 <= boxes[j].y2
    ensures SortedByBottom(boxes, [x] + t)
  {
    var r := [x] + t;
    forall a, b | 0 <= a < b < |r| ensures boxes[r[a]].y2 <= boxes[r[b]].y2 {
      if a == 0 {
        assert r[b] == t[b - 1] && t[b - 1] in t;
      } else {
        assert r[a] == t[a - 1] && r[b] == t[b - 1];
      }
    }
  }

  lemma {:induction false} InsertKeepsDistinct(boxes: seq<Box>, k: nat, s: seq<nat>)
    requires k < |boxes| && IndicesIn(s, |boxes|)
    requires Distinct(s) && k !in s
    ensures Distinct(InsertByBottom(boxes, k, s))
  {
    if |s| > 0 && boxes[k].y2 >= boxes[s[0]].y2 {
      var t := InsertByBottom(boxes, k, s[1..]);
      assert s == [s[0]] + s[1..];
      assert Distinct(s[1..]) by {
        forall a, b | 0 <= a < b < |s[1..]| ensures s[1..][a] != s[1..][b] {
          assert s[1..][a] == s[a + 1] && s[1..][b] == s[b + 1];
        }
      }
      InsertKeepsDistinct(boxes, k, s[1..]);
      forall p | 0 <= p < |s[1..]| ensures s[1..][p] != s[0] {
        assert s[1..][p] == s[p + 1];
      }
      assert s[0] !in t;
      var r := [s[0]] + t;
      forall a, b | 0 <= a < b < |r| ensures r[a] != r[b] {
        if a == 0 {
          assert r[b] == t[b - 1] && t[b - 1] in t;
        } else {
          assert r[a] == t[a - 1] && r[b] == t[b - 1];
        }
      }
    }
  }

  /** The indices 0..n-1, sorted by bottom edge. */
  function SortPrefix(boxes: seq<Box>, n: nat): (r: seq<nat>)
    requires n <= |boxes|
    ensures |r| == n && Distinct(r) && SortedByBottom(boxes, r)
    ensures forall j :: j in r <==> 0 <= j < n
  {
    if n == 0 then []
    else
      var s := SortPrefix(boxes, n - 1);
      InsertKeepsSorted(boxes, n - 1, s);
      InsertKeepsDistinct(boxes, n - 1, s);
      InsertByBottom(boxes, n - 1, s)
  }

  /** `np.argsort(y2)`: every position of `boxes` exactly once, in ascending
      order of bottom edge. */
  function ArgSortByBottom(boxes: seq<Box>): (r: seq<nat>)
    ensures |r| == |boxes| && Distinct(r) && SortedByBottom(boxes, r)
    ensures forall j :: 0 <= j < |boxes| ==> j in r
  {
    SortPrefix(boxes, |boxes|)
  }
}

=== FILE: int_math.dfy ===
/**
 * Integer arithmetic shared by both ports of the measurement stage:
 * Python's floor division, C++'s truncating division, and the conversion
 * `int(n * pct)` / `static_cast<int>(n * pct)` of a scaled percentage.
 * Percentages are exact rationals here; the rounding of double literals
 * such as 0.10 is not modelled.
 */
module IntMath {

  /** Positive integers: divisors and denominators. */
  type Pos = n: int | n > 0 witness 1

  /** An exact rational standing for one of the source's double literals
      (0.10 is Fraction(10, 100)). */
  datatype Fraction = Fraction(num: int, den: Pos)

  /** Python's `a // d` for a positive divisor: rounds toward negative infinity. */
  function FloorDiv(a: int, d: Pos): (q: int)
    ensures q * d <= a < q * d + d
  {
    a / d
  }

  /** C++'s `a / d` on ints and Python's `int()` of a quotient: rounds toward
      zero, so the remainder takes the sign of the dividend. */
  function TruncDiv(a: int, d: Pos): (q: int)
    ensures a >= 0 ==> 0 <= a - q * d < d
    ensures a < 0 ==> -(d as int) < a - q * d <= 0
  {
    if a >= 0 then a / d else -((-a) / d)
  }

  /** `int(n * f)` in Python, `static_cast<int>(n * f)` in C++, with f exact:
      n * f rounded toward zero. */
  function ScaleTrunc(n: int, f: Fraction): (t: int)
    ensures n * f.num >= 0 ==> t * f.den <= n * f.num < t * f.den + f.den
    ensures n * f.num < 0 ==> t * f.den - f.den < n * f.num <= t * f.den
  {
    TruncDiv(n * f.num, f.den)
  }

  /** On a non-negative dividend the two divisions agree. */
  lemma TruncIsFloorWhenNonNegative(a: int, d: Pos)
    requires a >= 0
    ensures TruncDiv(a, d) == FloorDiv(a, d)
  {
  }

  /** Scaling by a non-negative fraction never goes below zero. */
  lemma ScaleTruncNonNegative(n: nat, f: Fraction)
    requires f.num >= 0
    ensures 0 <= ScaleTrunc(n, f)
    ensures ScaleTrunc(n, f) * f.den <= n * f.num
  {
    assert n * f.num >= 0;
  }

  /** Two non-negative fractions of n whose sum is at most one take at most
      n units between them, after truncation. */
  lemma ScaleTruncSumFits(n: nat, a: Fraction, b: Fraction)
    requires a.num >= 0 && b.num >= 0
    requires a.num * b.den + b.num * a.den <= a.den * b.den
    ensures 0 <= ScaleTrunc(n, a) && 0 <= ScaleTrunc(n, b)
    ensures ScaleTrunc(n, a) + ScaleTrunc(n, b) <= n
  {
    ScaleTruncNonNegative(n, a);
    ScaleTruncNonNegative(n, b);
    SharesFit(n, ScaleTrunc(n, a), ScaleTrunc(n, b), a.num, b.num, a.den, b.den);
  }

  /** The arithmetic core of the lemma above, on plain integers: shares
      ta <= n * p / d and tb <= n * q / e with p / d + q / e <= 1 add up to
      at most n. */
  lemma SharesFit(n: nat, ta: int, tb: int, p: int, q: int, d: Pos, e: Pos)
    requires ta * d <= n * p && tb * e <= n * q
    requires p * e + q * d <= d * e
    ensures ta + tb <= n
  {
    MulLeMonotone(ta * d, n * p, e);
    MulLeMonotone(tb * e, n * q, d);
    MulLeMonotone(p * e + q * d, d * e, n);
    assert (ta + tb) * (d * e) <= n * (d * e);
    if ta + tb > n {
      MulLtMonotone(n, ta + tb, d * e);
    }
  }

  lemma MulLeMonotone(x: int, y: int, k: nat)
    requires x <= y
    ensures x * k <= y * k
  {
    assert (y - x) * k >= 0;
  }

  lemma MulLtMonotone(x: int, y: int, k: Pos)
    requires x < y
    ensures x * k < y * k
  {
    assert (y - x) * k > 0;
  }
}

=== FILE: positions.dfy ===
/**
 * Removing elements by position: `np.delete(s, positions)`, which removes a
 * whole list of positions at once and keeps the rest in order. `DeleteAt` is
 * the removal itself for non-negative positions; `NpDelete` adds numpy's
 * handling of the position list: a negative position counts from the end, and
 * a position outside [-len, len) raises `IndexError`.
 */
module Positions {

  /** `s` without the elements whose positions are listed, order kept;
      positions that name no element remove nothing. */
  function DeleteAt<T>(s: seq<T>, positions: seq<int>): (r: seq<T>)
    ensures |r| <= |s|
    ensures forall x :: x in r ==> x in s
  {
    if |s| == 0 then []
    else
      var q := |s| - 1;
      assert s == s[..q] + [s[q]];
      DeleteAt(s[..q], positions) + (if q in positions then [] else [s[q]])
  }

  /** Only the listed positions that name an element matter. */
  lemma {:induction false} DeleteAtDependsOnlyOnRange<T>(s: seq<T>, p1: seq<int>, p2: seq<int>)
    requires forall q :: 0 <= q < |s| ==> (q in p1 <==> q in p2)
    ensures DeleteAt(s, p1) == DeleteAt(s, p2)
  {
    if |s| > 0 {
      DeleteAtDependsOnlyOnRange(s[..|s| - 1], p1, p2);
    }
  }

  /** Positions that all fall inside a prefix leave the suffix untouched. */
  lemma {:induction false} DeleteAtInPrefix<T>(a: seq<T>, b: seq<T>, positions: seq<int>)
    requires forall k :: 0 <= k < |positions| ==> positions[k] < |a|
    ensures DeleteAt(a + b, positions) == DeleteAt(a, positions) + b
  {
    if |b| > 0 {
      var q := |a + b| - 1;
      assert (a + b)[..q] == a + b[..|b| - 1];
      assert q !in positions;
      DeleteAtInPrefix(a, b[..|b| - 1], positions);
      assert b[..|b| - 1] + [b[|b| - 1]] == b;
    } else {
      assert a + b == a;
    }
  }

  /** Deleting no in-range position returns the sequence itself. */
  lemma {:induction false} DeleteAtNothing<T>(s: seq<T>, positions: seq<int>)
    requires forall k :: 0 <= k < |positions| ==> positions[k] < 0 || positions[k] >= |s|
    ensures DeleteAt(s, positions) == s
  {
    if |s| > 0 {
      var q := |s| - 1;
      assert q !in positions;
      DeleteAtNothing(s[..q], positions);
      assert s[..q] + [s[q]] == s;
    }
  }

  /** Outcome of `np.delete`: the remaining elements, or `IndexError`. */
  datatype Deleted<T> = Deleted(value: seq<T>) | IndexError

  /** Every position is one numpy accepts for a sequence of length n. */
  predicate AcceptedPositions(positions: seq<int>, n: nat)
  {
    forall k :: 0 <= k < |positions| ==> -(n as int) <= positions[k] < n
  }

  /** numpy's position: a negative one counts from the end. */
  function Wrapped(p: int, n: nat): int
  {
    if p < 0 then p + n else p
  }

  /** `np.delete(s, positions)` for a list of integer positions. */
  function NpDelete<T>(s: seq<T>, positions: seq<int>): (r: Deleted<T>)
    ensures r.IndexError? <==> exists k :: 0 <= k < |positions| && (positions[k] < -|s| || positions[k] >= |s|)
    ensures r.Deleted? ==> |r.value| <= |s| && forall x :: x in r.value ==> x in s
  {
    if AcceptedPositions(positions, |s|)
    then Deleted(DeleteAt(s, seq(|positions|, k requires 0 <= k < |positions| => Wrapped(positions[k], |s|))))
    else IndexError
  }

  /** For positions that all name an element directly, `np.delete` is
      `DeleteAt`. */
  lemma NpDeleteInRange<T>(s: seq<T>, positions: seq<int>)
    requires forall k :: 0 <= k < |positions| ==> 0 <= positions[k] < |s|
    ensures NpDelete(s, positions) == Deleted(DeleteAt(s, positions))
  {
    var wrapped := seq(|positions|, k requires 0 <= k < |positions| => Wrapped(positions[k], |s|));
    assert wrapped == positions;
  }

  /** A negative position counts from the end: deleting position -1 drops
      the last element, and of an empty sequence it raises `IndexError`. */
  lemma NpDeleteWrapsNegative<T>(s: seq<T>)
    ensures |s| > 0 ==> NpDelete(s, [-1]) == Deleted(s[..|s| - 1])
    ensures |s| == 0 ==> NpDelete(s, [-1]) == IndexError
  {
    if |s| > 0 {
      var q := |s| - 1;
      assert AcceptedPositions([-1], |s|);
      assert seq(1, k requires 0 <= k < 1 => Wrapped([-1][k], |s|)) == [q];
      assert DeleteAt(s, [q]) == DeleteAt(s[..q], [q]) by {
        assert s == s[..q] + [s[q]];
      }
      DeleteAtNothing(s[..q], [q]);
    } else {
      assert [-1][0] >= |s| - 1;
      assert !AcceptedPositions([-1], |s|);
    }
  }

  /** A position at or past the end raises `IndexError`. */
  lemma NpDeleteRejectsPastEnd<T>(s: seq<T>, positions: seq<int>, k: nat)
    requires k < |positions| && positions[k] >= |s|
    ensures NpDelete(s, positions) == IndexError
  {
  }
}

=== FILE: readings.dfy ===
/**
 * The reading filter and the reading itself: `draw_rectangles` in Python and
 * `drawRectangles` in C++. A box passes when its aspect ratio width / height
 * is at most the maximum and its area width * height exceeds the minimum;
 * its reading is one minus the row of its centre over 500, the height of the
 * resized image, so the bottom row reads 0 and the top row reads 1.
 * Drawing the rectangle, the centre dot and the label is left to the caller.
 */
module Readings {
  import opened IntMath
  import opened Geometry

  /** Height in pixels of the image the readings refer to. */
  const ImageHeight: Pos := 500

  /** What the filter lets through for one box: the box, the centre it marks
      and the reading it labels the box with. */
  datatype Reading = Reading(box: Box, centerX: int, centerY: int, value: real)

  /** `aspect_ratio <= max_aspect_ratio and area > min_required_area`. The
      aspect ratio is a true division; for a box of height zero the area is
      zero, so for a non-negative minimum area the box fails whatever that
      division yields (`FlatBoxRejected`). */
  predicate Accepted(b: Box, minRequiredArea: int, maxAspect: int)
  {
    && b.Height() != 0
    && (b.Width() as real) / (b.Height() as real) <= maxAspect as real
    && b.Width() * b.Height() > minRequiredArea
  }

  /** For a box of positive height the filter is integer arithmetic:
      width at most maxAspect times height, and area above the minimum. */
  lemma AcceptedIntegerForm(b: Box, minRequiredArea: int, maxAspect: int)
    requires b.Height() > 0
    ensures Accepted(b, minRequiredArea, maxAspect)
            <==> b.Width() <= maxAspect * b.Height() && b.Width() * b.Height() > minRequiredArea
  {
    var w := b.Width() as real;
    var h := b.Height() as real;
    assert w / h * h == w;
    if w / h <= maxAspect as real {
      assert w <= (maxAspect as real) * h;
    }
    if b.Width() <= maxAspect * b.Height() {
      assert w <= (maxAspect as real) * h;
      assert w / h <= maxAspect as real;
    }
  }

  /** A box of height zero never passes. */
  lemma FlatBoxRejected(b: Box, minRequiredArea: int, maxAspect: int)
    requires b.Height() == 0 && minRequiredArea >= 0
    ensures !Accepted(b, minRequiredArea, maxAspect)
  {
  }

  /** `(y + y2) // 2` in Python: floor division. */
  function PyCenter(lo: int, hi: int): (c: int)
    ensures 2 * c <= lo + hi < 2 * c + 2
  {
    FloorDiv(lo + hi, 2)
  }

  /** `rect.y + rect.height / 2` in C++: the extent is halved toward zero,
      down for a non-negative extent and up for a negative one. */
  function CppCenter(lo: int, extent: int): (c: int)
    ensures extent >= 0 ==> 2 * (c - lo) <= extent < 2 * (c - lo) + 2
    ensures extent < 0 ==> 2 * (c - lo) - 2 < extent <= 2 * (c - lo)
  {
    lo + TruncDiv(extent, 2)
  }

  /** For a non-negative extent the two centres agree, whatever the sign of
      the coordinates. */
  lemma CentersAgree(lo: int, hi: int)
    requires lo <= hi
    ensures CppCenter(lo, hi - lo) == PyCenter(lo, hi)
  {
    TruncIsFloorWhenNonNegative(hi - lo, 2);
    var t := TruncDiv(hi - lo, 2);
    assert 2 * (lo + t) <= lo + hi < 2 * (lo + t) + 2;
  }

  /** With a negative odd extent they differ: truncation rounds up, the
      floor rounds down. */
  lemma CentersDisagreeOnNegativeExtent()
    ensures PyCenter(0, -1) == -1 && CppCenter(0, -1) == 0
  {
  }

  /** The centre row of a box lies inside it. */
  lemma CenterInside(b: Box)
    requires b.Valid()
    ensures b.y1 <= PyCenter(b.y1, b.y2) < b.y2
    ensures b.x1 <= PyCenter(b.x1, b.x2) < b.x2
  {
  }

  /** `1 - center_y / 500`. */
  function Normalise(centerY: int): real
  {
    1.0 - (centerY as real) / (ImageHeight as real)
  }

  /** The reading is 1 at the top row, 0 at row 500, lies in [0, 1] exactly
      for the rows 0..500, and falls as the row goes down the image. */
  lemma NormaliseRange(c: int)
    ensures Normalise(0) == 1.0 && Normalise(500) == 0.0
    ensures 0.0 <= Normalise(c) <= 1.0 <==> 0 <= c <= 500
    ensures forall d :: c < d ==> Normalise(d) < Normalise(c)
  {
  }

  /** The reading of one accepted box, centred as the Python version does. */
  function ReadingOf(b: Box): (r: Reading)
    ensures r.box == b
    ensures 2 * r.centerY <= b.y1 + b.y2 < 2 * r.centerY + 2
    ensures r.value == Normalise(r.centerY)
  {
    var cy := PyCenter(b.y1, b.y2);
    Reading(b, PyCenter(b.x1, b.x2), cy, Normalise(cy))
  }

  /** The readings `draw_rectangles` draws for a list of boxes: one per
      accepted box, in the order of the list. */
  function ExtractReadings(boxes: seq<Box>, minRequiredArea: int, maxAspect: int): (r: seq<Reading>)
    ensures |r| <= |boxes|
    ensures forall d :: d in r ==> d.box in boxes && Accepted(d.box, minRequiredArea, maxAspect) && d == ReadingOf(d.box)
    ensures forall b :: b in boxes && Accepted(b, minRequiredArea, maxAspect) ==> ReadingOf(b) in r
  {
    if |boxes| == 0 then []
    else
      var rest := ExtractReadings(boxes[1..], minRequiredArea, maxAspect);
      assert forall b :: b in boxes ==> b == boxes[0] || b in boxes[1..];
      (if Accepted(boxes[0], minRequiredArea, maxAspect) then [ReadingOf(boxes[0])] else []) + rest
  }

  /** Readings of two lists drawn one after the other are the readings of the
      joined list: the filter keeps the order of its input. */
  lemma {:induction false} ExtractReadingsAppend(a: seq<Box>, b: seq<Box>, minRequiredArea: int, maxAspect: int)
    ensures ExtractReadings(a + b, minRequiredArea, maxAspect)
            == ExtractReadings(a, minRequiredArea, maxAspect) + ExtractReadings(b, minRequiredArea, maxAspect)
  {
    if |a| > 0 {
      assert (a + b)[0] == a[0] && (a + b)[1..] == a[1..] + b;
      ExtractReadingsAppend(a[1..], b, minRequiredArea, maxAspect);
    } else {
      assert a + b == b;
    }
  }

  /** A box with its rows inside the image reads between 0 and 1. */
  lemma ReadingInUnitInterval(b: Box)
    requires 0 <= b.y1 < b.y2 <= 500
    ensures 0.0 <= ReadingOf(b).value <= 1.0
  {
    NormaliseRange(ReadingOf(b).centerY);
  }

  /** The C++ port marks the same centre and draws the same reading for every
      box it is given, since those come from `boundingRect` with non-negative
      extents. */
  lemma CppReadingAgrees(b: Box)
    requires b.Valid()
    ensures CppCenter(b.y1, b.Height()) == ReadingOf(b).centerY
    ensures CppCenter(b.x1, b.Width()) == ReadingOf(b).centerX
    ensures 1.0 - (CppCenter(b.y1, b.Height()) as real) / 500.0 == ReadingOf(b).value
  {
    CentersAgree(b.y1, b.y2);
    CentersAgree(b.x1, b.x2);
  }
}

=== FILE: search.dfy ===
/**
 * The search for a contour-area threshold, `RFValueCalc` in Python and
 * `mainProcess` in C++. Starting from 200, each round detects the boxes whose
 * contour area exceeds the current threshold, suppresses overlapping ones at
 * 0.2, draws the readings of the survivors onto the same image, and lowers the
 * threshold by 100; the loop stops once a round leaves at least seven boxes.
 *
 * Nothing bounds the threshold from below. Once it is negative every contour
 * already passes the filter (a contour's area is never negative), so every
 * later round repeats the same result: if that result has fewer than seven
 * boxes, the loop never ends. The model runs the literal loop with a round
 * budget (`fuel`) and reports whether the target was reached; the corrected
 * search stops after the first round with a negative threshold, from which
 * on every contour is kept and no later round can differ.
 */
module Search {
  import opened Geometry
  import opened Contours
  import opened Suppression
  import opened Readings

  const InitialMinArea: int := 200
  const AreaStep: int := 100
  const MinRequiredRectangles: nat := 7
  const OverlapThresh: real := 0.2
  const MinRequiredArea: int := 250
  const MaxAspectRatio: int := 3

  /** One round at threshold minArea: detect, then suppress. */
  function Round(cs: seq<Contour>, conv: AreaConvention, minArea: int): (boxes: seq<Box>)
    ensures AllValid(boxes) && |boxes| <= |cs|
  {
    NonMaxSuppression(FindBoxes(cs, minArea), conv, OverlapThresh)
  }

  /** The rounds of one image, as a function of the threshold. */
  function Rounds(cs: seq<Contour>, conv: AreaConvention): int -> seq<Box>
  {
    m => Round(cs, conv, m)
  }

  /** The round k steps after the one at minArea. */
  function RoundAt(round: int -> seq<Box>, minArea: int, k: nat): seq<Box>
  {
    round(minArea - AreaStep * k)
  }

  /** Where the loop ended: whether the last round reached the target, the
      boxes of that round, the threshold variable after the loop, how many
      rounds ran, and every reading drawn on the image along the way. */
  datatype Outcome = Outcome(reached: bool, boxes: seq<Box>, nextMinArea: int, rounds: nat, drawn: seq<Reading>)

  /** The `while num_rectangles < min_required_rectangles` loop from threshold
      minArea, with at most fuel + 1 rounds; `round` gives each round's boxes. */
  function Relax(round: int -> seq<Box>, minArea: int, fuel: nat): (r: Outcome)
    ensures 1 <= r.rounds <= fuel + 1
    ensures r.nextMinArea == minArea - AreaStep * r.rounds
    ensures r.reached <==> |r.boxes| >= MinRequiredRectangles
    ensures !r.reached ==> r.rounds == fuel + 1
    decreases fuel
  {
    var boxes := round(minArea);
    var drawn := ExtractReadings(boxes, MinRequiredArea, MaxAspectRatio);
    if |boxes| >= MinRequiredRectangles || fuel == 0 then
      Outcome(|boxes| >= MinRequiredRectangles, boxes, minArea - AreaStep, 1, drawn)
    else
      var rest := Relax(round, minArea - AreaStep, fuel - 1);
      Outcome(rest.reached, rest.boxes, rest.nextMinArea, rest.rounds + 1, drawn + rest.drawn)
  }

  /** The loop ends with the boxes of its last round, and every round before
      that one had fewer than seven boxes. */
  lemma {:induction false} RelaxRunsRounds(round: int -> seq<Box>, minArea: int, fuel: nat)
    ensures var r := Relax(round, minArea, fuel);
            && r.boxes == RoundAt(round, minArea, r.rounds - 1)
            && forall k: nat :: k < r.rounds - 1 ==> |RoundAt(round, minArea, k)| < MinRequiredRectangles
    decreases fuel
  {
    var r := Relax(round, minArea, fuel);
    if |round(minArea)| >= MinRequiredRectangles || fuel == 0 {
      assert r.boxes == RoundAt(round, minArea, 0);
    } else {
      var rest := Relax(round, minArea - AreaStep, fuel - 1);
      RelaxRunsRounds(round, minArea - AreaStep, fuel - 1);
      assert r.rounds == rest.rounds + 1 && r.boxes == rest.boxes;
      ShiftRound(round, minArea, rest.rounds - 1);
      forall k: nat | k < r.rounds - 1 ensures |RoundAt(round, minArea, k)| < MinRequiredRectangles {
        if k > 0 {
          ShiftRound(round, minArea, k - 1);
        }
      }
    }
  }

  /** Round k + 1 from minArea is round k from the next threshold. */
  lemma ShiftRound(round: int -> seq<Box>, minArea: int, k: nat)
    ensures RoundAt(round, minArea - AreaStep, k) == RoundAt(round, minArea, k + 1)
  {
  }

  /** The readings of the first round are drawn first. */
  lemma RelaxDrawsFirstRoundFirst(round: int -> seq<Box>, minArea: int, fuel: nat)
    ensures var r := Relax(round, minArea, fuel);
            var first := ExtractReadings(round(minArea), MinRequiredArea, MaxAspectRatio);
            |first| <= |r.drawn| && r.drawn[..|first|] == first
  {
    var r := Relax(round, minArea, fuel);
    var first := ExtractReadings(round(minArea), MinRequiredArea, MaxAspectRatio);
    if |round(minArea)| < MinRequiredRectangles && fuel > 0 {
      var rest := Relax(round, minArea - AreaStep, fuel - 1);
      assert r.drawn == first + rest.drawn;
    }
  }

  /** The readings of the n rounds from minArea, round after round: the first
      round's, then those of the rounds from the next threshold. */
  function DrawnUpTo(round: int -> seq<Box>, minArea: int, n: nat): seq<Reading>
    decreases n
  {
    if n == 0 then []
    else ExtractReadings(round(minArea), MinRequiredArea, MaxAspectRatio) + DrawnUpTo(round, minArea - AreaStep, n - 1)
  }

  /** Every round that ran draws its readings, in round order: the image
      carries the readings of the first round, then of the second, and so on
      up to the last one. */
  lemma {:induction false} RelaxDrawsEveryRound(round: int -> seq<Box>, minArea: int, fuel: nat)
    ensures var r := Relax(round, minArea, fuel);
            r.drawn == DrawnUpTo(round, minArea, r.rounds)
    decreases fuel
  {
    if |round(minArea)| < MinRequiredRectangles && fuel > 0 {
      RelaxDrawsEveryRound(round, minArea - AreaStep, fuel - 1);
    } else {
      var first := ExtractReadings(round(minArea), MinRequiredArea, MaxAspectRatio);
      assert DrawnUpTo(round, minArea - AreaStep, 0) == [];
      assert first + [] == first;
    }
  }

  /** The image of outcome r ends with the readings of r's boxes. */
  predicate EndsWithLastRound(r: Outcome)
  {
    var last := ExtractReadings(r.boxes, MinRequiredArea, MaxAspectRatio);
    |last| <= |r.drawn| && r.drawn[|r.drawn| - |last|..] == last
  }

  /** The readings of the last round's boxes, the ones the stage reports,
      are the last ones drawn. */
  lemma {:induction false} RelaxDrawsLastRoundLast(round: int -> seq<Box>, minArea: int, fuel: nat)
    ensures EndsWithLastRound(Relax(round, minArea, fuel))
    decreases fuel
  {
    var r := Relax(round, minArea, fuel);
    if |round(minArea)| < MinRequiredRectangles && fuel > 0 {
      var rest := Relax(round, minArea - AreaStep, fuel - 1);
      RelaxDrawsLastRoundLast(round, minArea - AreaStep, fuel - 1);
      EndsWithLastRoundAfter(r, rest, ExtractReadings(round(minArea), MinRequiredArea, MaxAspectRatio));
    } else {
      EndsWithLastRoundAlone(r);
    }
  }

  /** Readings drawn in front of an outcome's image keep it ending with the
      readings of its boxes. */
  lemma EndsWithLastRoundAfter(r: Outcome, rest: Outcome, first: seq<Reading>)
    requires r.drawn == first + rest.drawn && r.boxes == rest.boxes
    requires EndsWithLastRound(rest)
    ensures EndsWithLastRound(r)
  {
    var last := ExtractReadings(r.boxes, MinRequiredArea, MaxAspectRatio);
    EndsWithAfterPrefix(first, rest.drawn, last);
  }

  /** An image holding only the readings of the outcome's boxes ends with
      them. */
  lemma EndsWithLastRoundAlone(r: Outcome)
    requires r.drawn == ExtractReadings(r.boxes, MinRequiredArea, MaxAspectRatio)
    ensures EndsWithLastRound(r)
  {
    assert r.drawn[|r.drawn| - |r.drawn|..] == r.drawn;
  }

  /** A sequence that ends with c still ends with c once something is put in
      front of it. */
  lemma EndsWithAfterPrefix(a: seq<Reading>, b: seq<Reading>, c: seq<Reading>)
    requires |c| <= |b| && b[|b| - |c|..] == c
    ensures |c| <= |a + b| && (a + b)[|a + b| - |c|..] == c
  {
    assert (a + b)[|a + b| - |c|..] == b[|b| - |c|..];
  }

  /** Reading d labels an accepted box of one of the first n rounds from
      minArea. */
  ghost predicate DrawnFrom(round: int -> seq<Box>, minArea: int, n: nat, d: Reading)
  {
    exists k: nat :: k < n && d.box in RoundAt(round, minArea, k) && Accepted(d.box, MinRequiredArea, MaxAspectRatio)
  }

  /** Every reading on the image belongs to an accepted box of some round
      that ran. */
  lemma {:induction false} RelaxDrawsOnlyRoundBoxes(round: int -> seq<Box>, minArea: int, fuel: nat)
    ensures var r := Relax(round, minArea, fuel);
            forall d :: d in r.drawn ==> DrawnFrom(round, minArea, r.rounds, d)
    decreases fuel
  {
    var r := Relax(round, minArea, fuel);
    var first := ExtractReadings(round(minArea), MinRequiredArea, MaxAspectRatio);
    if |round(minArea)| < MinRequiredRectangles && fuel > 0 {
      var rest := Relax(round, minArea - AreaStep, fuel - 1);
      assert r.drawn == first + rest.drawn;
      RelaxDrawsOnlyRoundBoxes(round, minArea - AreaStep, fuel - 1);
      assert var r' := Relax(round, minArea - AreaStep, fuel - 1);
             forall d :: d in r'.drawn ==> DrawnFrom(round, minArea - AreaStep, r'.rounds, d);
      assert forall d :: d in rest.drawn ==> DrawnFrom(round, minArea - AreaStep, rest.rounds, d);
      forall d | d in r.drawn ensures DrawnFrom(round, minArea, r.rounds, d) {
        if d in first {
          FirstRoundReading(round, minArea, r.rounds, d);
        } else {
          assert d in rest.drawn;
          DrawnFromShift(round, minArea, rest.rounds, d);
        }
      }
    } else {
      assert r.drawn == first;
      forall d | d in r.drawn ensures DrawnFrom(round, minArea, r.rounds, d) {
        FirstRoundReading(round, minArea, r.rounds, d);
      }
    }
  }

  /** A reading of the first round belongs to an accepted box of it. */
  lemma FirstRoundReading(round: int -> seq<Box>, minArea: int, n: nat, d: Reading)
    requires n >= 1 && d in ExtractReadings(round(minArea), MinRequiredArea, MaxAspectRatio)
    ensures DrawnFrom(round, minArea, n, d)
  {
    var first := ExtractReadings(round(minArea), MinRequiredArea, MaxAspectRatio);
    var j :| 0 <= j < |first| && first[j] == d;
    assert d.box in RoundAt(round, minArea, 0);
  }

  /** A reading of the rounds from the next threshold is one of the rounds
      from this one, one step later. */
  lemma DrawnFromShift(round: int -> seq<Box>, minArea: int, n: nat, d: Reading)
    requires DrawnFrom(round, minArea - AreaStep, n, d)
    ensures DrawnFrom(round, minArea, n + 1, d)
  {
    var k: nat :| k < n && d.box in RoundAt(round, minArea - AreaStep, k) && Accepted(d.box, MinRequiredArea, MaxAspectRatio);
    ShiftRound(round, minArea, k);
  }

  /** More fuel changes nothing once the target has been reached. */
  lemma {:induction false} RelaxFuelIrrelevant(round: int -> seq<Box>, minArea: int, fuel: nat, more: nat)
    requires fuel <= more && Relax(round, minArea, fuel).reached
    ensures Relax(round, minArea, more) == Relax(round, minArea, fuel)
    decreases fuel
  {
    if |round(minArea)| < MinRequiredRectangles {
      RelaxFuelIrrelevant(round, minArea - AreaStep, fuel - 1, more - 1);
    }
  }

  /** The loop reaches the target within fuel + 1 rounds exactly when one of
      the rounds it may run reaches it. */
  lemma RelaxReachesIffSomeRoundDoes(round: int -> seq<Box>, minArea: int, fuel: nat)
    ensures Relax(round, minArea, fuel).reached
            <==> exists k: nat :: k <= fuel && |RoundAt(round, minArea, k)| >= MinRequiredRectangles
  {
    var r := Relax(round, minArea, fuel);
    RelaxRunsRounds(round, minArea, fuel);
    if !r.reached {
      forall k: nat | k <= fuel ensures |RoundAt(round, minArea, k)| < MinRequiredRectangles {
        if k == fuel {
          assert r.rounds - 1 == k;
        }
      }
    }
  }

  /** Rounds that no longer depend on the threshold once it is below zero. */
  ghost predicate SteadyBelowZero(round: int -> seq<Box>)
  {
    forall m: int :: m < 0 ==> round(m) == round(-1)
  }

  /** Contour areas as `contourArea` reports them: never negative. */
  predicate AreasNonNegative(cs: seq<Contour>)
  {
    forall k :: 0 <= k < |cs| ==> cs[k].area >= 0.0
  }

  /** Below zero the threshold no longer matters: every contour is kept, so
      every such round returns the same boxes. */
  lemma RoundsSteadyBelowZero(cs: seq<Contour>, conv: AreaConvention)
    requires AreasNonNegative(cs)
    ensures SteadyBelowZero(Rounds(cs, conv))
  {
    forall m: int | m < 0 ensures Round(cs, conv, m) == Round(cs, conv, -1) {
      KeptAllBelowEveryArea(cs, m);
      KeptAllBelowEveryArea(cs, -1);
      FindBoxesMonotone(cs, m, m);
      FindBoxesMonotone(cs, -1, -1);
    }
  }

  /** A round below zero that misses the target is repeated by every later
      round, so the loop as written never reaches the target, however many
      rounds it is given. */
  lemma {:induction false} NeverReachedBelowZero(round: int -> seq<Box>, minArea: int, fuel: nat)
    requires SteadyBelowZero(round) && minArea < 0
    requires |round(minArea)| < MinRequiredRectangles
    ensures !Relax(round, minArea, fuel).reached
    decreases fuel
  {
    if fuel > 0 {
      assert round(minArea - AreaStep) == round(-1) == round(minArea);
      NeverReachedBelowZero(round, minArea - AreaStep, fuel - 1);
    }
  }

  /** An image with no contours at all: the search from 200 never stops. */
  lemma NoContoursNeverReached(conv: AreaConvention, fuel: nat)
    ensures !Relax(Rounds([], conv), InitialMinArea, fuel).reached
  {
    var r := Relax(Rounds([], conv), InitialMinArea, fuel);
    RelaxRunsRounds(Rounds([], conv), InitialMinArea, fuel);
    assert |Round([], conv, InitialMinArea - AreaStep * (r.rounds - 1))| == 0;
  }

  /** Rounds the corrected search may run from minArea: up to and including
      the first round whose threshold is below zero. */
  function RoundBudget(minArea: int): (fuel: nat)
    ensures minArea - AreaStep * fuel < 0
    ensures fuel > 0 ==> minArea - AreaStep * (fuel - 1) >= 0
  {
    if minArea < 0 then 0 else minArea / AreaStep + 1
  }

  /** The corrected search: the same rounds, but it gives up after the first
      round with a negative threshold, since every contour is kept from then
      on and no later round can differ. */
  function RelaxWithFloor(round: int -> seq<Box>, minArea: int): (r: Outcome)
    ensures r.reached <==> |r.boxes| >= MinRequiredRectangles
    ensures r.reached || r.nextMinArea < 0
    decreases if minArea < 0 then 0 else minArea + 1
  {
    var boxes := round(minArea);
    var drawn := ExtractReadings(boxes, MinRequiredArea, MaxAspectRatio);
    if |boxes| >= MinRequiredRectangles || minArea < 0 then
      Outcome(|boxes| >= MinRequiredRectangles, boxes, minArea - AreaStep, 1, drawn)
    else
      var rest := RelaxWithFloor(round, minArea - AreaStep);
      Outcome(rest.reached, rest.boxes, rest.nextMinArea, rest.rounds + 1, drawn + rest.drawn)
  }

  /** The corrected search is the loop as written, run for its round budget. */
  lemma {:induction false} RelaxWithFloorIsBudgetedLoop(round: int -> seq<Box>, minArea: int)
    ensures RelaxWithFloor(round, minArea) == Relax(round, minArea, RoundBudget(minArea))
    decreases if minArea < 0 then 0 else minArea + 1
  {
    if minArea >= 0 && |round(minArea)| < MinRequiredRectangles {
      RelaxWithFloorIsBudgetedLoop(round, minArea - AreaStep);
      assert RoundBudget(minArea - AreaStep) == RoundBudget(minArea) - 1;
    }
  }

  /** The corrected search draws every round it runs, in round order, and
      ends with the readings of its last round. */
  lemma RelaxWithFloorDrawsEveryRound(round: int -> seq<Box>, minArea: int)
    ensures var r := RelaxWithFloor(round, minArea);
            r.drawn == DrawnUpTo(round, minArea, r.rounds) && EndsWithLastRound(r)
  {
    var b := RoundBudget(minArea);
    RelaxWithFloorIsBudgetedLoop(round, minArea);
    RelaxDrawsEveryRound(round, minArea, b);
    RelaxDrawsLastRoundLast(round, minArea, b);
    assert RelaxWithFloor(round, minArea) == Relax(round, minArea, b);
  }

  /** The corrected search reports failure exactly when the loop as written
      would never stop, and otherwise ends where that loop ends. */
  lemma RelaxWithFloorDecides(round: int -> seq<Box>, minArea: int)
    requires SteadyBelowZero(round)
    ensures var r := RelaxWithFloor(round, minArea);
            && (r.reached ==> forall fuel: nat :: fuel >= RoundBudget(minArea) ==> Relax(round, minArea, fuel) == r)
            && (!r.reached ==> forall fuel: nat :: !Relax(round, minArea, fuel).reached)
  {
    var r := RelaxWithFloor(round, minArea);
    var b := RoundBudget(minArea);
    RelaxWithFloorIsBudgetedLoop(round, minArea);
    if r.reached {
      forall fuel: nat | fuel >= b ensures Relax(round, minArea, fuel) == r {
        RelaxFuelIrrelevant(round, minArea, b, fuel);
      }
    } else {
      forall fuel: nat ensures !Relax(round, minArea, fuel).reached {
        NeverReachedWithinOrBeyond(round, minArea, fuel);
      }
    }
  }

  /** If the budgeted loop misses the target, so does every run of the loop. */
  lemma NeverReachedWithinOrBeyond(round: int -> seq<Box>, minArea: int, fuel: nat)
    requires SteadyBelowZero(round)
    requires !Relax(round, minArea, RoundBudget(minArea)).reached
    ensures !Relax(round, minArea, fuel).reached
  {
    var b := RoundBudget(minArea);
    RelaxReachesIffSomeRoundDoes(round, minArea, b);
    RelaxReachesIffSomeRoundDoes(round, minArea, fuel);
    forall k: nat | k <= fuel ensures |RoundAt(round, minArea, k)| < MinRequiredRectangles {
      if k > b {
        assert minArea - AreaStep * k < 0 by {
          assert AreaStep * k > AreaStep * b;
        }
        assert RoundAt(round, minArea, k) == round(-1) == RoundAt(round, minArea, b);
      }
    }
  }

  /** The measurement stage's search on one image: from 200, with the
      corrected floor. When the contours' areas are non-negative it fails
      exactly when the loop as written would run forever. */
  lemma MeasurementSearchDecides(cs: seq<Contour>, conv: AreaConvention)
    requires AreasNonNegative(cs)
    ensures var r := RelaxWithFloor(Rounds(cs, conv), InitialMinArea);
            && r == Relax(Rounds(cs, conv), InitialMinArea, 3)
            && (!r.reached ==> forall fuel: nat :: !Relax(Rounds(cs, conv), InitialMinArea, fuel).reached)
  {
    RoundsSteadyBelowZero(cs, conv);
    RelaxWithFloorIsBudgetedLoop(Rounds(cs, conv), InitialMinArea);
    RelaxWithFloorDecides(Rounds(cs, conv), InitialMinArea);
  }
}

=== FILE: suppression.dfy ===
/**
 * Greedy non-maximum suppression, `non_max_suppression` in Python.
 *
 * The indices are sorted by bottom edge; each pass keeps the index at the
 * end (`last`, the lowest box still in play), lists in `suppress` that
 * position and every earlier position whose box overlaps the keeper by more
 * than the threshold, and deletes all of `suppress` at once. The overlap of a
 * candidate is its intersection with the keeper over its OWN area. The
 * normaliser is a parameter: Python's pixel-inclusive area, or the C++
 * port's `Rect::area()` (whose erase loop is modelled separately).
 */
module Suppression {
  import opened Geometry
  import opened IndexSort
  import opened Positions

  /** Which keeper drops which candidate, as a relation on indices. The loop
      below is stated for any such relation; `OverlapRule` is the one both
      ports use. */
  type DropRule = (nat, nat) -> bool

  /** Keeper i drops candidate j: j's overlap with i exceeds the threshold. */
  predicate Suppresses(boxes: seq<Box>, conv: AreaConvention, thresh: real, i: nat, j: nat)
  {
    && i < |boxes| && j < |boxes| && boxes[j].Valid()
    && Overlap(conv, boxes[i], boxes[j]) > thresh
  }

  /** The drop rule of `non_max_suppression` on a list of boxes. */
  function OverlapRule(boxes: seq<Box>, conv: AreaConvention, thresh: real): (drops: DropRule)
    ensures forall i: nat, j: nat :: drops(i, j) == Suppresses(boxes, conv, thresh, i, j)
  {
    (i: nat, j: nat) => Suppresses(boxes, conv, thresh, i, j)
  }

  /** The positions of `rest` (the entries before `last`) that keeper i
      drops, in ascending order: the `suppress.append(pos)` entries. */
  function OverlapPositions(drops: DropRule,
                            i: nat, rest: seq<nat>): (ps: seq<int>)
    ensures forall k :: 0 <= k < |ps| ==> 0 <= ps[k] < |rest| && drops(i, rest[ps[k]])
    ensures forall p :: 0 <= p < |rest| && drops(i, rest[p]) ==> p in ps
    ensures forall a, b :: 0 <= a < b < |ps| ==> ps[a] < ps[b]
  {
    if |rest| == 0 then []
    else
      var q := |rest| - 1;
      var front := OverlapPositions(drops, i, rest[..q]);
      var here: seq<int> := if drops(i, rest[q]) then [q] else [];
      PositionsExtend(drops, i, rest, front, here);
      front + here
  }

  /** The step of `OverlapPositions`: the positions below the last one, then
      the last one if the keeper drops its entry. */
  lemma PositionsExtend(drops: DropRule, i: nat, rest: seq<nat>, front: seq<int>, here: seq<int>)
    requires |rest| > 0
    requires var q := |rest| - 1;
             && (forall k :: 0 <= k < |front| ==> 0 <= front[k] < q && drops(i, rest[..q][front[k]]))
             && (forall p :: 0 <= p < q && drops(i, rest[..q][p]) ==> p in front)
             && (forall a, b :: 0 <= a < b < |front| ==> front[a] < front[b])
             && here == if drops(i, rest[q]) then [q] else []
    ensures var ps := front + here;
            && (forall k :: 0 <= k < |ps| ==> 0 <= ps[k] < |rest| && drops(i, rest[ps[k]]))
            && (forall p :: 0 <= p < |rest| && drops(i, rest[p]) ==> p in ps)
            && (forall a, b :: 0 <= a < b < |ps| ==> ps[a] < ps[b])
  {
    var q := |rest| - 1;
    var ps := front + here;
    forall k | 0 <= k < |ps| ensures 0 <= ps[k] < |rest| && drops(i, rest[ps[k]]) {
      if k < |front| {
        assert ps[k] == front[k] && rest[..q][front[k]] == rest[front[k]];
      } else {
        assert ps[k] == q;
      }
    }
    forall p | 0 <= p < |rest| && drops(i, rest[p]) ensures p in ps {
      if p < q {
        assert rest[..q][p] == rest[p];
        assert p in front;
      } else {
        assert ps[|front|] == p;
      }
    }
    forall a, b | 0 <= a < b < |ps| ensures ps[a] < ps[b] {
      if b < |front| {
        assert ps[a] == front[a] && ps[b] == front[b];
      } else {
        assert ps[a] == front[a] && ps[b] == q;
      }
    }
  }

  /** The shape of `suppress` for a list of n indices: the keeper's position
      n - 1 first, then positions below it in ascending order. */
  predicate SuppressShape(n: nat, suppress: seq<int>)
  {
    && n >= 1 && |suppress| >= 1 && suppress[0] == n - 1
    && (forall k :: 1 <= k < |suppress| ==> 0 <= suppress[k] < n - 1)
    && forall a, b :: 1 <= a < b < |suppress| ==> suppress[a] < suppress[b]
  }

  /** `suppress` of a pass: the keeper's own position `last` first, then the
      overlapping positions. */
  function SuppressList(drops: DropRule, idxs: seq<nat>): (suppress: seq<int>)
    requires |idxs| > 0
    ensures SuppressShape(|idxs|, suppress)
  {
    var last := |idxs| - 1;
    var ps := OverlapPositions(drops, idxs[last], idxs[..last]);
    assert forall k :: 0 <= k < |ps| ==> ([last] + ps)[k + 1] == ps[k];
    [last] + ps
  }

  /** The entries of `rest` that keeper i lets through, in order. */
  function Survivors(drops: DropRule,
                     i: nat, rest: seq<nat>): (r: seq<nat>)
    ensures |r| <= |rest|
  {
    if |rest| == 0 then []
    else
      var q := |rest| - 1;
      Survivors(drops, i, rest[..q])
        + (if drops(i, rest[q]) then [] else [rest[q]])
  }

  /** One step of `Survivors`: the survivors of all but the last entry,
      then the last entry if the keeper lets it through. */
  lemma SurvivorsSnoc(drops: DropRule, i: nat, rest: seq<nat>)
    requires |rest| > 0
    ensures var q := |rest| - 1;
            Survivors(drops, i, rest)
            == Survivors(drops, i, rest[..q]) + (if drops(i, rest[q]) then [] else [rest[q]])
  {
  }

  /** The survivors are exactly the entries the keeper does not drop. */
  lemma {:induction false} SurvivorsMembers(drops: DropRule, i: nat, rest: seq<nat>)
    ensures forall j :: j in Survivors(drops, i, rest) <==> j in rest && !drops(i, j)
  {
    if |rest| > 0 {
      var q := |rest| - 1;
      var front := rest[..q];
      assert rest == front + [rest[q]];
      SurvivorsMembers(drops, i, front);
      SurvivorsSnoc(drops, i, rest);
    }
  }

  /** The survivors of a sorted list are sorted. */
  lemma {:induction false} SurvivorsKeepSorted(boxes: seq<Box>, drops: DropRule,
                                               i: nat, rest: seq<nat>)
    requires SortedByBottom(boxes, rest)
    ensures SortedByBottom(boxes, Survivors(drops, i, rest))
  {
    if |rest| > 0 {
      var q := |rest| - 1;
      var front := rest[..q];
      SortedPrefix(boxes, rest, q);
      SurvivorsKeepSorted(boxes, drops, i, front);
      SurvivorsMembers(drops, i, front);
      var s := Survivors(drops, i, front);
      assert Survivors(drops, i, rest) == s + (if drops(i, rest[q]) then [] else [rest[q]]);
      if !drops(i, rest[q]) {
        forall x | x in s ensures x < |boxes| && boxes[x].y2 <= boxes[rest[q]].y2 {
          var p :| 0 <= p < |front| && front[p] == x;
          assert rest[p] == x;
        }
        AppendHighest(boxes, s, rest[q]);
      } else {
        assert s + [] == s;
      }
    }
  }

  /** Appending an index whose box sits no higher than any listed one keeps
      the list sorted. */
  lemma AppendHighest(boxes: seq<Box>, s: seq<nat>, x: nat)
    requires SortedByBottom(boxes, s) && x < |boxes|
    requires forall y :: y in s ==> y < |boxes| && boxes[y].y2 <= boxes[x].y2
    ensures SortedByBottom(boxes, s + [x])
  {
    var r := s + [x];
    forall a, b | 0 <= a < b < |r| ensures boxes[r[a]].y2 <= boxes[r[b]].y2 {
      assert r[a] == s[a] && s[a] in s;
      if b < |s| {
        assert r[b] == s[b];
      }
    }
  }

  /** The survivors of a list without repeats have no repeats. */
  lemma {:induction false} SurvivorsKeepDistinct(drops: DropRule,
                                                 i: nat, rest: seq<nat>)
    requires Distinct(rest)
    ensures Distinct(Survivors(drops, i, rest))
  {
    if |rest| > 0 {
      var q := |rest| - 1;
      var front := rest[..q];
      DistinctPrefix(rest, q);
      SurvivorsKeepDistinct(drops, i, front);
      SurvivorsMembers(drops, i, front);
      var s := Survivors(drops, i, front);
      assert Survivors(drops, i, rest) == s + (if drops(i, rest[q]) then [] else [rest[q]]);
      if !drops(i, rest[q]) {
        assert rest[q] !in front by {
          forall p | 0 <= p < q ensures front[p] != rest[q] {
            assert front[p] == rest[p];
          }
        }
        AppendFresh(s, rest[q]);
      } else {
        assert s + [] == s;
      }
    }
  }

  /** Appending a new index to a list without repeats adds none. */
  lemma AppendFresh(s: seq<nat>, x: nat)
    requires Distinct(s) && x !in s
    ensures Distinct(s + [x])
  {
    var r := s + [x];
    forall a, b | 0 <= a < b < |r| ensures r[a] != r[b] {
      assert r[a] == s[a] && s[a] in s;
      if b < |s| {
        assert r[b] == s[b];
      }
    }
  }

  /** Deleting exactly the positions the keeper overlaps leaves its survivors. */
  lemma {:induction false} DeleteOverlappingIsSurvivors(drops: DropRule,
                                                        i: nat, rest: seq<nat>, positions: seq<int>)
    requires forall p :: 0 <= p < |rest| ==> (p in positions <==> drops(i, rest[p]))
    ensures DeleteAt(rest, positions) == Survivors(drops, i, rest)
  {
    if |rest| > 0 {
      var q := |rest| - 1;
      var front := rest[..q];
      assert forall p :: 0 <= p < q ==> front[p] == rest[p];
      DeleteOverlappingIsSurvivors(drops, i, front, positions);
      assert DeleteAt(rest, positions) == DeleteAt(front, positions) + (if q in positions then [] else [rest[q]]);
      assert Survivors(drops, i, rest) == Survivors(drops, i, front) + (if drops(i, rest[q]) then [] else [rest[q]]);
    }
  }

  /** One pass, `idxs = np.delete(idxs, suppress)`. */
  function NextIndices(drops: DropRule, idxs: seq<nat>): (r: seq<nat>)
    requires |idxs| > 0
    ensures |r| < |idxs|
  {
    NextIndicesAreSurvivors(drops, idxs);
    DeleteAt(idxs, SuppressList(drops, idxs))
  }

  /** The positions a pass hands to `np.delete` all name an element, so
      numpy's wrapping and `IndexError` never come into play: the call is
      `DeleteAt`. */
  lemma NextIndicesIsNpDelete(drops: DropRule, idxs: seq<nat>)
    requires |idxs| > 0
    ensures NpDelete(idxs, SuppressList(drops, idxs)) == Deleted(NextIndices(drops, idxs))
  {
    var suppress := SuppressList(drops, idxs);
    forall k | 0 <= k < |suppress| ensures 0 <= suppress[k] < |idxs| {
      if k > 0 {
        assert 0 <= suppress[k] < |idxs| - 1;
      }
    }
    NpDeleteInRange(idxs, suppress);
  }

  /** What a pass leaves is exactly the entries before `last` that the keeper
      does not overlap too much, in their order: the keeper itself is gone and
      the list shrinks. */
  lemma NextIndicesAreSurvivors(drops: DropRule, idxs: seq<nat>)
    requires |idxs| > 0
    ensures DeleteAt(idxs, SuppressList(drops, idxs))
            == Survivors(drops, idxs[|idxs| - 1], idxs[..|idxs| - 1])
    ensures |Survivors(drops, idxs[|idxs| - 1], idxs[..|idxs| - 1])| < |idxs|
  {
    var last := |idxs| - 1;
    var suppress := SuppressList(drops, idxs);
    var rest := idxs[..last];
    assert idxs == rest + [idxs[last]];
    assert DeleteAt(idxs, suppress) == DeleteAt(rest, suppress) + [];
    DeleteOverlappingIsSurvivors(drops, idxs[last], rest, suppress);
  }

  /** The survivors of a pass, as one step of the model. */
  lemma NextIndicesIsFilter(drops: DropRule, idxs: seq<nat>)
    requires |idxs| > 0
    ensures var next := NextIndices(drops, idxs);
            var rest := idxs[..|idxs| - 1];
            && next == Survivors(drops, idxs[|idxs| - 1], rest)
            && forall j :: j in next <==> j in rest && !drops(idxs[|idxs| - 1], j)
  {
    NextIndicesAreSurvivors(drops, idxs);
    SurvivorsMembers(drops, idxs[|idxs| - 1], idxs[..|idxs| - 1]);
  }

  /** An entry other than the one at `last` lies before it. */
  lemma InFrontUnlessLast(idxs: seq<nat>, j: nat)
    requires |idxs| > 0 && j in idxs && j != idxs[|idxs| - 1]
    ensures j in idxs[..|idxs| - 1]
  {
    var k :| 0 <= k < |idxs| && idxs[k] == j;
    assert idxs[..|idxs| - 1][k] == j;
  }

  /** The `while len(idxs) > 0` loop: the picks, keeper by keeper. */
  function Greedy(drops: DropRule, idxs: seq<nat>): (pick: seq<nat>)
    ensures |pick| <= |idxs|
    decreases |idxs|
  {
    if |idxs| == 0 then []
    else [idxs[|idxs| - 1]] + Greedy(drops, NextIndices(drops, idxs))
  }

  /** The first pick is the entry at `last`, and every pick is an entry. */
  lemma {:induction false} GreedyPicksEntries(drops: DropRule, idxs: seq<nat>)
    ensures var pick := Greedy(drops, idxs);
            && (|idxs| > 0 ==> |pick| > 0 && pick[0] == idxs[|idxs| - 1])
            && forall x :: x in pick ==> x in idxs
    decreases |idxs|
  {
    if |idxs| > 0 {
      var last := |idxs| - 1;
      var next := NextIndices(drops, idxs);
      NextIndicesIsFilter(drops, idxs);
      GreedyPicksEntries(drops, next);
      var tail := Greedy(drops, next);
      var pick := [idxs[last]] + tail;
      assert Greedy(drops, idxs) == pick;
      forall x | x in pick ensures x in idxs {
        if x != idxs[last] {
          assert x in next;
          var k :| 0 <= k < last && idxs[..last][k] == x;
          assert idxs[k] == x;
        }
      }
    }
  }

  /** Of any two picks, the later one overlaps the earlier one by at most the
      threshold: it survived the pass in which the earlier one was keeper. */
  lemma {:induction false} GreedyLowOverlap(drops: DropRule, idxs: seq<nat>)
    ensures var pick := Greedy(drops, idxs);
            forall a, b :: 0 <= a < b < |pick| ==> !drops(pick[a], pick[b])
    decreases |idxs|
  {
    if |idxs| > 0 {
      var next := NextIndices(drops, idxs);
      var i := idxs[|idxs| - 1];
      NextIndicesIsFilter(drops, idxs);
      GreedyLowOverlap(drops, next);
      GreedyPicksEntries(drops, next);
      var tail := Greedy(drops, next);
      var pick := Greedy(drops, idxs);
      assert pick == [i] + tail;
      forall a, b | 0 <= a < b < |pick| ensures !drops(pick[a], pick[b]) {
        if a == 0 {
          assert pick[b] == tail[b - 1] && tail[b - 1] in tail;
          assert pick[b] in next;
        } else {
          assert pick[a] == tail[a - 1] && pick[b] == tail[b - 1];
        }
      }
    }
  }

  /** Entry j is picked, or some pick drops it. */
  predicate Covered(drops: DropRule, pick: seq<nat>, j: nat)
  {
    j in pick || exists a :: 0 <= a < |pick| && drops(pick[a], j)
  }

  /** Covering survives putting one more pick in front. */
  lemma CoveredPrepend(drops: DropRule, i: nat, tail: seq<nat>, j: nat)
    requires Covered(drops, tail, j)
    ensures Covered(drops, [i] + tail, j)
  {
    var pick := [i] + tail;
    if j in tail {
      var k :| 0 <= k < |tail| && tail[k] == j;
      assert pick[k + 1] == j;
    } else {
      var a :| 0 <= a < |tail| && drops(tail[a], j);
      assert pick[a + 1] == tail[a];
    }
  }

  /** Every entry is either picked or dropped by some pick. */
  lemma {:induction false} GreedyCovers(drops: DropRule, idxs: seq<nat>)
    ensures forall j :: j in idxs ==> Covered(drops, Greedy(drops, idxs), j)
    decreases |idxs|
  {
    if |idxs| > 0 {
      var last := |idxs| - 1;
      var i := idxs[last];
      var next := NextIndices(drops, idxs);
      NextIndicesIsFilter(drops, idxs);
      GreedyCovers(drops, next);
      var tail := Greedy(drops, next);
      var pick := Greedy(drops, idxs);
      assert pick == [i] + tail;
      forall j | j in idxs ensures Covered(drops, pick, j) {
        if j == i {
          assert pick[0] == j;
        } else if drops(i, j) {
          assert pick[0] == i;
        } else {
          InFrontUnlessLast(idxs, j);
          assert j in next;
          CoveredPrepend(drops, i, tail, j);
        }
      }
    }
  }

  /** Picks never repeat an index. */
  lemma {:induction false} GreedyDistinct(drops: DropRule, idxs: seq<nat>)
    requires Distinct(idxs)
    ensures Distinct(Greedy(drops, idxs))
    decreases |idxs|
  {
    if |idxs| > 0 {
      var last := |idxs| - 1;
      var rest := idxs[..last];
      var next := NextIndices(drops, idxs);
      NextIndicesIsFilter(drops, idxs);
      DistinctPrefix(idxs, last);
      SurvivorsKeepDistinct(drops, idxs[last], rest);
      GreedyDistinct(drops, next);
      GreedyPicksEntries(drops, next);
      var tail := Greedy(drops, next);
      assert Greedy(drops, idxs) == [idxs[last]] + tail;
      assert idxs[last] !in rest by {
        forall p | 0 <= p < last ensures rest[p] != idxs[last] {
          assert rest[p] == idxs[p];
        }
      }
      PrependFresh(idxs[last], tail);
    }
  }

  /** A prefix of a list without repeats has none. */
  lemma DistinctPrefix(s: seq<nat>, n: nat)
    requires Distinct(s) && n <= |s|
    ensures Distinct(s[..n])
  {
    forall a, b | 0 <= a < b < n ensures s[..n][a] != s[..n][b] {
      assert s[..n][a] == s[a] && s[..n][b] == s[b];
    }
  }

  /** Putting a new index in front of a list without repeats adds none. */
  lemma PrependFresh(i: nat, tail: seq<nat>)
    requires Distinct(tail) && i !in tail
    ensures Distinct([i] + tail)
  {
    var s := [i] + tail;
    forall a, b | 0 <= a < b < |s| ensures s[a] != s[b] {
      assert s[b] == tail[b - 1];
      if a > 0 {
        assert s[a] == tail[a - 1];
      }
    }
  }

  /** The boxes named by `pick` have non-increasing bottom edges. */
  predicate BottomsNonIncreasing(boxes: seq<Box>, pick: seq<nat>)
  {
    && IndicesIn(pick, |boxes|)
    && forall a, b :: 0 <= a < b < |pick| ==> boxes[pick[a]].y2 >= boxes[pick[b]].y2
  }

  /** In a list sorted by bottom edge, the entry at `last` (the keeper of the
      pass) has the largest bottom edge of all entries. */
  lemma KeeperIsLowest(boxes: seq<Box>, idxs: seq<nat>)
    requires SortedByBottom(boxes, idxs)
    ensures |idxs| > 0 ==> forall x :: x in idxs ==> boxes[x].y2 <= boxes[idxs[|idxs| - 1]].y2
  {
    forall x | x in idxs && |idxs| > 0 ensures boxes[x].y2 <= boxes[idxs[|idxs| - 1]].y2 {
      var p :| 0 <= p < |idxs| && idxs[p] == x;
    }
  }

  lemma SortedPrefix(boxes: seq<Box>, idxs: seq<nat>, n: nat)
    requires SortedByBottom(boxes, idxs) && n <= |idxs|
    ensures SortedByBottom(boxes, idxs[..n])
  {
    var p := idxs[..n];
    forall a, b | 0 <= a < b < |p| ensures boxes[p[a]].y2 <= boxes[p[b]].y2 {
      assert p[a] == idxs[a] && p[b] == idxs[b];
    }
  }

  /** From a list sorted by bottom edge, the picks come out in non-increasing
      bottom-edge order. */
  lemma {:induction false} GreedyNonIncreasing(boxes: seq<Box>, drops: DropRule, idxs: seq<nat>)
    requires SortedByBottom(boxes, idxs)
    ensures BottomsNonIncreasing(boxes, Greedy(drops, idxs))
    decreases |idxs|
  {
    if |idxs| > 0 {
      var next := NextIndices(drops, idxs);
      NextKeepsSorted(boxes, drops, idxs);
      GreedyNonIncreasing(boxes, drops, next);
      TailNotBelowKeeper(boxes, drops, idxs);
      PrependLowest(boxes, idxs[|idxs| - 1], Greedy(drops, next));
    }
  }

  /** A pass keeps a sorted list sorted. */
  lemma NextKeepsSorted(boxes: seq<Box>, drops: DropRule, idxs: seq<nat>)
    requires SortedByBottom(boxes, idxs) && |idxs| > 0
    ensures SortedByBottom(boxes, NextIndices(drops, idxs))
  {
    var last := |idxs| - 1;
    NextIndicesIsFilter(drops, idxs);
    SortedPrefix(boxes, idxs, last);
    SurvivorsKeepSorted(boxes, drops, idxs[last], idxs[..last]);
  }

  /** No later pick sits lower than the first keeper. */
  lemma TailNotBelowKeeper(boxes: seq<Box>, drops: DropRule, idxs: seq<nat>)
    requires SortedByBottom(boxes, idxs) && |idxs| > 0
    ensures forall x :: x in Greedy(drops, NextIndices(drops, idxs)) ==>
              x < |boxes| && boxes[x].y2 <= boxes[idxs[|idxs| - 1]].y2
  {
    var last := |idxs| - 1;
    var rest := idxs[..last];
    var next := NextIndices(drops, idxs);
    var tail := Greedy(drops, next);
    assert idxs == rest + [idxs[last]];
    NextIndicesIsFilter(drops, idxs);
    GreedyPicksEntries(drops, next);
    KeeperIsLowest(boxes, idxs);
    forall x | x in tail ensures x < |boxes| && boxes[x].y2 <= boxes[idxs[last]].y2 {
      assert x in rest;
      assert x in idxs;
    }
  }

  lemma PrependLowest(boxes: seq<Box>, i: nat, tail: seq<nat>)
    requires i < |boxes| && BottomsNonIncreasing(boxes, tail)
    requires forall x :: x in tail ==> x < |boxes| && boxes[x].y2 <= boxes[i].y2
    ensures BottomsNonIncreasing(boxes, [i] + tail)
  {
    var pick := [i] + tail;
    forall a, b | 0 <= a < b < |pick| ensures boxes[pick[a]].y2 >= boxes[pick[b]].y2 {
      if a > 0 {
        assert pick[a] == tail[a - 1] && pick[b] == tail[b - 1];
      } else {
        assert pick[b] == tail[b - 1] && tail[b - 1] in tail;
      }
    }
  }

  /** `non_max_suppression`, as the indices of the picked boxes: none for
      no input, otherwise distinct input positions, never more than there
      are boxes. What the picks guarantee about the boxes is
      `NonMaxSuppressionPicksOrdered` and `NonMaxSuppressionPicksCover`. */
  function NonMaxSuppressionPicks(boxes: seq<Box>, conv: AreaConvention, thresh: real): (pick: seq<nat>)
    requires AllValid(boxes)
    ensures |pick| <= |boxes|
    ensures |pick| == 0 <==> |boxes| == 0
    ensures IndicesIn(pick, |boxes|) && Distinct(pick)
  {
    SortedGreedyBasics(boxes, conv, thresh, ArgSortByBottom(boxes));
    Greedy(OverlapRule(boxes, conv, thresh), ArgSortByBottom(boxes))
  }

  /** The first pick is a lowest box of all. */
  predicate LowestFirst(boxes: seq<Box>, pick: seq<nat>)
  {
    |boxes| > 0 ==> |pick| > 0 && pick[0] < |boxes| && forall j :: 0 <= j < |boxes| ==> boxes[j].y2 <= boxes[pick[0]].y2
  }

  /** No pick overlaps an earlier pick by more than the threshold. */
  predicate PairwiseLowOverlap(boxes: seq<Box>, conv: AreaConvention, thresh: real, pick: seq<nat>)
  {
    && AllValid(boxes) && IndicesIn(pick, |boxes|)
    && forall a, b :: 0 <= a < b < |pick| ==> Overlap(conv, boxes[pick[a]], boxes[pick[b]]) <= thresh
  }

  /** The picks of `non_max_suppression`: the first is a lowest box, bottom
      edges never increase along the picks, and no pick overlaps an earlier
      pick by more than the threshold. */
  lemma NonMaxSuppressionPicksOrdered(boxes: seq<Box>, conv: AreaConvention, thresh: real)
    requires AllValid(boxes)
    ensures var pick := NonMaxSuppressionPicks(boxes, conv, thresh);
            && LowestFirst(boxes, pick)
            && BottomsNonIncreasing(boxes, pick)
            && PairwiseLowOverlap(boxes, conv, thresh, pick)
  {
    SortedGreedyProperties(boxes, conv, thresh, ArgSortByBottom(boxes));
  }

  /** The same guarantees for any order of all the indices sorted by bottom
      edge, whatever the order of equal bottom edges. */
  lemma SortedGreedyProperties(boxes: seq<Box>, conv: AreaConvention, thresh: real, order: seq<nat>)
    requires AllValid(boxes)
    requires |order| == |boxes| && SortedByBottom(boxes, order)
    requires forall j :: 0 <= j < |boxes| ==> j in order
    ensures var pick := Greedy(OverlapRule(boxes, conv, thresh), order);
            && LowestFirst(boxes, pick)
            && BottomsNonIncreasing(boxes, pick)
            && PairwiseLowOverlap(boxes, conv, thresh, pick)
  {
    var drops := OverlapRule(boxes, conv, thresh);
    PicksLowOverlap(boxes, conv, thresh, order);
    GreedyNonIncreasing(boxes, drops, order);
    GreedyPicksEntries(drops, order);
    KeeperIsLowest(boxes, order);
  }

  /** Every input box is picked, or overlaps some pick by more than the
      threshold. */
  lemma NonMaxSuppressionPicksCover(boxes: seq<Box>, conv: AreaConvention, thresh: real)
    requires AllValid(boxes)
    ensures var pick := NonMaxSuppressionPicks(boxes, conv, thresh);
            forall j :: 0 <= j < |boxes| ==>
              j in pick || exists a :: 0 <= a < |pick| && pick[a] < |boxes| && Overlap(conv, boxes[pick[a]], boxes[j]) > thresh
  {
    PicksCover(boxes, conv, thresh, ArgSortByBottom(boxes));
  }

  /** Started from every index once, the greedy loop picks something exactly
      when there are boxes, and picks distinct positions. */
  lemma SortedGreedyBasics(boxes: seq<Box>, conv: AreaConvention, thresh: real, order: seq<nat>)
    requires AllValid(boxes)
    requires |order| == |boxes| && Distinct(order) && IndicesIn(order, |boxes|)
    ensures var pick := Greedy(OverlapRule(boxes, conv, thresh), order);
            && (|pick| == 0 <==> |boxes| == 0)
            && IndicesIn(pick, |boxes|) && Distinct(pick)
  {
    var drops := OverlapRule(boxes, conv, thresh);
    PicksLowOverlap(boxes, conv, thresh, order);
    GreedyDistinct(drops, order);
    GreedyPicksEntries(drops, order);
  }

  /** `GreedyLowOverlap` in terms of the overlap fraction. */
  lemma PicksLowOverlap(boxes: seq<Box>, conv: AreaConvention, thresh: real, idxs: seq<nat>)
    requires AllValid(boxes) && IndicesIn(idxs, |boxes|)
    ensures PairwiseLowOverlap(boxes, conv, thresh, Greedy(OverlapRule(boxes, conv, thresh), idxs))
  {
    var drops := OverlapRule(boxes, conv, thresh);
    var pick := Greedy(drops, idxs);
    GreedyLowOverlap(drops, idxs);
    GreedyPicksEntries(drops, idxs);
    assert IndicesIn(pick, |boxes|) by {
      forall k | 0 <= k < |pick| ensures pick[k] < |boxes| {
        assert pick[k] in pick;
      }
    }
    forall a, b | 0 <= a < b < |pick| ensures Overlap(conv, boxes[pick[a]], boxes[pick[b]]) <= thresh {
      assert !drops(pick[a], pick[b]);
    }
  }

  /** `GreedyCovers` in terms of the overlap fraction. */
  lemma PicksCover(boxes: seq<Box>, conv: AreaConvention, thresh: real, idxs: seq<nat>)
    requires AllValid(boxes) && IndicesIn(idxs, |boxes|)
    ensures var pick := Greedy(OverlapRule(boxes, conv, thresh), idxs);
            forall j :: j in idxs ==>
              j in pick || exists a :: 0 <= a < |pick| && pick[a] < |boxes| && Overlap(conv, boxes[pick[a]], boxes[j]) > thresh
  {
    var drops := OverlapRule(boxes, conv, thresh);
    var pick := Greedy(drops, idxs);
    GreedyCovers(drops, idxs);
    forall j | j in idxs && j !in pick
      ensures exists a :: 0 <= a < |pick| && pick[a] < |boxes| && Overlap(conv, boxes[pick[a]], boxes[j]) > thresh
    {
      assert Covered(drops, pick, j);
      var a :| 0 <= a < |pick| && drops(pick[a], j);
      assert Suppresses(boxes, conv, thresh, pick[a], j);
    }
  }

  /** The boxes a list of picks names, in pick order: `rectangles[pick]`. */
  function Select(boxes: seq<Box>, pick: seq<nat>): (r: seq<Box>)
    requires IndicesIn(pick, |boxes|)
    ensures |r| == |pick|
    ensures forall k :: 0 <= k < |r| ==> r[k] == boxes[pick[k]]
  {
    seq(|pick|, k requires 0 <= k < |pick| => boxes[pick[k]])
  }

  /** `non_max_suppression` on boxes, `rectangles[pick]`. */
  function NonMaxSuppression(boxes: seq<Box>, conv: AreaConvention, thresh: real): (r: seq<Box>)
    requires AllValid(boxes)
    ensures |r| <= |boxes| && (|r| == 0 <==> |boxes| == 0)
    ensures AllValid(r) && forall k :: 0 <= k < |r| ==> r[k] in boxes
  {
    Select(boxes, NonMaxSuppressionPicks(boxes, conv, thresh))
  }

  /** The selected boxes come lowest first, their bottom edges never increase,
      and none overlaps an earlier one by more than the threshold. */
  lemma NonMaxSuppressionOrdered(boxes: seq<Box>, conv: AreaConvention, thresh: real)
    requires AllValid(boxes)
    ensures var r := NonMaxSuppression(boxes, conv, thresh);
            && (|boxes| > 0 ==> forall j :: 0 <= j < |boxes| ==> boxes[j].y2 <= r[0].y2)
            && (forall a, b :: 0 <= a < b < |r| ==> r[a].y2 >= r[b].y2)
            && (forall a, b :: 0 <= a < b < |r| ==> Overlap(conv, r[a], r[b]) <= thresh)
  {
    var pick := NonMaxSuppressionPicks(boxes, conv, thresh);
    var r := NonMaxSuppression(boxes, conv, thresh);
    NonMaxSuppressionPicksOrdered(boxes, conv, thresh);
    assert r == Select(boxes, pick);
  }

  /** Every input box is kept, or overlaps a kept box by more than the
      threshold. */
  lemma NonMaxSuppressionCovers(boxes: seq<Box>, conv: AreaConvention, thresh: real)
    requires AllValid(boxes)
    ensures var r := NonMaxSuppression(boxes, conv, thresh);
            forall b :: b in boxes ==> b in r || exists a :: 0 <= a < |r| && Overlap(conv, r[a], b) > thresh
  {
    var pick := NonMaxSuppressionPicks(boxes, conv, thresh);
    var r := NonMaxSuppression(boxes, conv, thresh);
    NonMaxSuppressionPicksCover(boxes, conv, thresh);
    assert r == Select(boxes, pick);
    forall b | b in boxes
      ensures b in r || exists a :: 0 <= a < |r| && Overlap(conv, r[a], b) > thresh
    {
      var j :| 0 <= j < |boxes| && boxes[j] == b;
      SelectCovers(boxes, conv, thresh, pick, j);
    }
  }

  /** A box picked, or overlapping a pick by more than the threshold, is
      kept, or overlaps a kept box by more than the threshold. */
  lemma SelectCovers(boxes: seq<Box>, conv: AreaConvention, thresh: real, pick: seq<nat>, j: nat)
    requires AllValid(boxes) && IndicesIn(pick, |boxes|) && j < |boxes|
    requires j in pick || exists a :: 0 <= a < |pick| && pick[a] < |boxes| && Overlap(conv, boxes[pick[a]], boxes[j]) > thresh
    ensures var r := Select(boxes, pick);
            boxes[j] in r || exists a :: 0 <= a < |r| && Overlap(conv, r[a], boxes[j]) > thresh
  {
    var r := Select(boxes, pick);
    if j in pick {
      var k :| 0 <= k < |pick| && pick[k] == j;
      assert r[k] == boxes[j];
    } else {
      var a :| 0 <= a < |pick| && pick[a] < |boxes| && Overlap(conv, boxes[pick[a]], boxes[j]) > thresh;
      assert r[a] == boxes[pick[a]];
    }
  }

  /** For one keeper and one candidate, the `rect.area()` comparison drops
      whatever the pixel-inclusive one drops. */
  lemma RectDropsWhenInclusiveDrops(boxes: seq<Box>, thresh: real, i: nat, j: nat)
    ensures Suppresses(boxes, PixelInclusive, thresh, i, j) ==> Suppresses(boxes, RectArea, thresh, i, j)
  {
    if Suppresses(boxes, PixelInclusive, thresh, i, j) {
      RectOverlapAtLeastInclusive(boxes[i], boxes[j]);
    }
  }

  /** In one pass over the same entries, the positions the `rect.area()`
      keeper collects include those the pixel-inclusive keeper collects. */
  lemma RectPassCollectsMore(boxes: seq<Box>, thresh: real, i: nat, rest: seq<nat>)
    ensures var py := OverlapPositions(OverlapRule(boxes, PixelInclusive, thresh), i, rest);
            var cpp := OverlapPositions(OverlapRule(boxes, RectArea, thresh), i, rest);
            forall k :: 0 <= k < |py| ==> py[k] in cpp
  {
    var py := OverlapPositions(OverlapRule(boxes, PixelInclusive, thresh), i, rest);
    var cpp := OverlapPositions(OverlapRule(boxes, RectArea, thresh), i, rest);
    forall k | 0 <= k < |py| ensures py[k] in cpp {
      var p := py[k];
      assert 0 <= p < |rest| && Suppresses(boxes, PixelInclusive, thresh, i, rest[p]);
      RectDropsWhenInclusiveDrops(boxes, thresh, i, rest[p]);
      assert OverlapRule(boxes, RectArea, thresh)(i, rest[p]);
    }
  }

  /** Under either area convention, a candidate inside the keeper overlaps
      it by at least one: exactly one under the pixel-inclusive area, more
      than one under `Rect::area()`. */
  lemma ContainedOverlapAtLeastOne(conv: AreaConvention, keeper: Box, cand: Box)
    requires cand.Valid()
    ensures Contains(keeper, cand) ==> Overlap(conv, keeper, cand) >= 1.0
  {
    if Contains(keeper, cand) {
      if conv == PixelInclusive {
        ContainedOverlapIsOne(keeper, cand);
      } else {
        ContainedRectOverlapExceedsOne(keeper, cand);
      }
    }
  }

  /** A candidate inside the keeper is dropped whenever the threshold is
      below one. */
  lemma ContainedIsSuppressed(boxes: seq<Box>, conv: AreaConvention, thresh: real, i: nat, j: nat)
    requires i < |boxes| && j < |boxes| && boxes[j].Valid()
    requires Contains(boxes[i], boxes[j]) && thresh < 1.0
    ensures Suppresses(boxes, conv, thresh, i, j)
  {
    ContainedOverlapAtLeastOne(conv, boxes[i], boxes[j]);
  }

  /** With a threshold below one, no pick lies inside an earlier pick. */
  lemma ContainedNeverPickedAfter(boxes: seq<Box>, conv: AreaConvention, thresh: real)
    requires AllValid(boxes) && thresh < 1.0
    ensures var pick := NonMaxSuppressionPicks(boxes, conv, thresh);
            forall a, b :: 0 <= a < b < |pick| ==> !Contains(boxes[pick[a]], boxes[pick[b]])
  {
    var pick := NonMaxSuppressionPicks(boxes, conv, thresh);
    NonMaxSuppressionPicksOrdered(boxes, conv, thresh);
    forall a, b | 0 <= a < b < |pick| ensures !Contains(boxes[pick[a]], boxes[pick[b]]) {
      ContainedOverlapAtLeastOne(conv, boxes[pick[a]], boxes[pick[b]]);
    }
  }
}
